=== FILE: README.md ===
# Paint-chat relay and clients, modelled in Dafny

The system is a relay process (`my-server.c`) and any number of drawing
clients (`my-client.c`). They exchange NUL-terminated text envelopes over
TCP. Each is written as a full 1024-byte buffer, except the client's quit
request, which is written as its seven bytes:

- `D-x0-y0-x1-y1` carries one stroke segment;
- `M-Client[id]:text` carries a chat line;
- `S-quit` is a client's request to leave;
- a bare decimal slot index is the identity the relay gives a new client.

The relay keeps a table of ten connection slots (0 marks an empty one). It
hands out the lowest empty slot on accept, and it forwards every envelope
it reads, unmodified, to every other occupied slot. A quit request frees
the sender's slot. Both processes keep a list of stroke segments: new
segments go in front, and an Expose event redraws the list from the front.
A drag turns pointer motion into chained segments. The relay logs its own
drag segments; a client sends them and logs only the segments it receives.

The model replaces sockets, `select` and X11 with an event record per pass
of each main loop and a list of effects per pass. The effects are: draw a
segment, print a line, send or forward an envelope, assign an identity,
close a connection.

| file | module | what it holds |
|---|---|---|
| `base.dfy` | `Base` | constants (`BUF_SIZE`, `MAX_CLIENTS`, `:q\n`), `Option`/`Result`, `Int16` points and segments, effects |
| `ctext.dfy` | `CText` | C string primitives: NUL-terminated buffers, `isspace`, the `%s` word rule, `%d` formatting, `%hd` scanning |
| `codec.dfy` | `Codec` | `sscanf("%c-%s")`, the decoder both `parse` functions share, the four encoders, round-trip and truncation laws |
| `strokes.dfy` | `Strokes` | the stroke list (`appendStroke`), Expose replay, drag traces, what `parse` renders |
| `relay.dfy` | `Relay` | slot table, accept, fan-out, the read loop, one pass of the relay loop |
| `client.dfy` | `Client` | identity and title, drag-to-send, the typed line, receiving, one pass of the client loop |
| `endtoend.dfy` | `EndToEnd` | what one client writes reaches the others, and short two-client scenarios |

Where the program's behaviour is undefined in C, the model states the
defined inputs as a precondition (`Relay.Receivable`, `Client.Receivable`,
`Relay.Admissible`, `Client.Admissible`). Examples are a `D` envelope
without four in-range shorts, and a typed line too long for the client's
1006-byte copy.

In four places the code does less than a reader of the protocol might expect, and the model follows the code:

- A read of zero or fewer bytes from a client is not a disconnect. The slot stays occupied (`Relay.ServeFrom` skips it).
- An envelope with an unknown tag, or `S-` with another token, is not fatal. The relay renders nothing and forwards it like any other (`Codec.Decode` yields `Unhandled`).
- A client never exits because of an envelope it cannot parse, and a zero-byte read does not end it.
- When the table is full, the accepted socket is neither stored nor closed, and nothing is sent on it.

The relay finishes the whole pass (the reads included) before it acts on
the operator's `:q\n` line, as the `hasNext` test at the loop's end does.
Both programs compare a console read with `:q\n` as `strcmp` does: only
the bytes before its first NUL count (`Codec.QuitCommand`,
`Relay.Shutdown`), and the client's chat line is likewise the read up to
its first NUL.

## Model

| member | source | states |
|---|---|---|
| CText.FrameCarriesText | my-server.c:249-252 | whatever bytes follow the terminator in a 1024-byte buffer, `parse` sees exactly the text that was written |
| CText.ScanIntText | my-server.c:62 | one `%hd` conversion reads back any short that `%d` wrote, negatives included, and stops at the first non-digit after it |
| Codec.Decode | my-server.c:42-68 | the decoder both `parse` functions share (the client's is my-client.c:65-78); it has no contract of its own, and what it promises is stated by `Codec.ScanEnvelopeSpec`, `Codec.UnsplitIff`, `Codec.QuitIff`, `Codec.StrokeRoundTrip` and `Codec.ChatTruncation` |
| Codec.ScanEnvelopeSpec | my-server.c:42 | `%c-%s` stores two fields exactly when the second character is `-` and some non-white-space follows; only the empty string hits EOF; the tag is the first character; the token is the maximal white-space-free run after the skipped white space |
| Codec.UnsplitIff | my-server.c:42-48 | the relay's `parse` takes its failure exit exactly when the dash is missing at position 1 or only white space follows it |
| Codec.QuitIff | my-server.c:50-55 | `parse` reports a disconnect exactly for `S-`, optional white space, `quit`, then the end or white space; every other tag, and `S-` with any other token, is not a quit |
| Codec.StrokeRoundTrip | my-client.c:135-136 | every segment written with `D-%d-%d-%d-%d` decodes with `%c-%s` and `%hd-%hd-%hd-%hd` to the same four coordinates, negatives (`--`) included |
| Codec.StrokeTextFits | my-client.c:134-136 | a stroke envelope is at most 29 characters, so `snprintf` into the 1024-byte buffer never truncates it |
| Codec.ChatTruncation | my-client.c:220 | a chat envelope decodes to the label `Client[id]:` followed by the longest white-space-free prefix of the typed line |
| Codec.ChatRoundTrip | my-client.c:218-221 | a typed line without white space arrives whole after the label |
| Codec.ChatTextFits | my-client.c:218-220 | a byte line that fits the 1006-byte copy yields a chat envelope of bytes that fits the 1024-byte buffer with its terminator |
| Codec.QuitDecodes | my-client.c:213 | the literal a client writes on `:q` is the quit request |
| Codec.IdentityOneDigit | my-server.c:238 | every slot index below ten is written as one decimal digit whose value is that index |
| Strokes.Render | my-server.c:57-65 | rendering a message (as my-client.c:69-77 also does) prints a chat message's token, draws a stroke's own segment and puts exactly that segment in front of the list, and does nothing for a quit request or an unknown tag; the anchor never moves |
| Strokes.AppendStroke | my-server.c:78-89 | the new segment becomes the head of the list and every older entry keeps its position behind it |
| Strokes.AppendAllReverses | my-server.c:78-89 | appending several segments leaves them newest first in front of the untouched old list |
| Strokes.Replay | my-server.c:98-102 | Expose draws one line per list node, in list order from the root |
| Strokes.ExposeNewestFirst | my-server.c:98-102 | after segments are appended, Expose draws each exactly once, the newest first, then every older entry in its old order |
| Strokes.Trace | my-server.c:103-114 | the segments of a drag start at the press point, end at each pointer position, and each starts where the previous one ended |
| Relay.FirstFree | my-server.c:231-234 | the slot found is empty and every slot before it is occupied; none is found exactly when all are occupied |
| Relay.Accept | my-server.c:231-242 | a new socket goes into the lowest empty slot; a full table is left unchanged and no slot is reported |
| Relay.AcceptKeepsValid | my-server.c:231-235 | storing a fresh descriptor keeps ten slots with no live descriptor held twice, so live identities stay distinct |
| Relay.ReleaseKeepsValid | my-server.c:263-264 | emptying slots keeps the table valid |
| Relay.FanOut | my-server.c:255-259 | everything the inner loop writes is the received buffer, to an occupied slot other than the sender's |
| Relay.FanOutOnce | my-server.c:255-259 | the inner loop writes exactly once to every occupied slot other than the sender's, and never to the sender or an empty slot |
| Relay.CloseAll | my-server.c:276-280 | shutdown closes exactly the occupied slots |
| Relay.DragChain | my-server.c:103-114 | after a press, the relay draws and logs exactly the chained trace of the drag, and its anchor ends at the last pointer position |
| Relay.OnEvent | my-server.c:91-116 | the relay's own X events only draw and never write to a socket; Expose redraws the whole list; a press moves the anchor; a motion draws the segment from the old anchor to the pointer, puts it in front of the list and moves the anchor; any other event changes nothing |
| Relay.Dispatch | my-server.c:252-266 | a parsed envelope stops the relay exactly when decoding failed (for a receivable envelope, only when it could not be split); the sender's slot is emptied exactly on a quit request and kept otherwise |
| Relay.Serve | my-server.c:249-266 | one read stops the relay exactly when `%c-%s` fails on it; the slot is emptied exactly when it decodes to the quit request |
| Relay.ServeForwardsOnce | my-server.c:247-260 | a non-quit envelope is written once to every other occupied slot and never back; a quit request is written to nobody; whatever is written is the buffer as received |
| Relay.ServeStroke | my-server.c:61-65 | a `D` envelope with four shorts draws its segment and puts exactly that segment at the head of the relay's list; all else it causes is forwarding |
| Relay.ServeFrom | my-server.c:245-269 | the read loop never fills a slot; it can only empty one |
| Relay.ServeFromCrashes | my-server.c:245-269 | the read loop exits the process exactly when some slot it reaches sent an envelope that cannot be split |
| Relay.ServeFromReleases | my-server.c:245-269 | a completed read loop empties exactly the slots whose clients sent a quit request and leaves all others as they were |
| Relay.AcceptGreets | my-server.c:222-242 | an accepted socket takes the lowest empty slot and is sent that slot's index as one decimal digit; with no empty slot the table is unchanged and nothing is sent |
| Relay.AcceptStep | my-server.c:222-242 | the accept branch fails exactly when `accept` returns a negative descriptor; with no pending connection it changes nothing; it never touches the canvas or the number of slots |
| Relay.AcceptStepTable | my-server.c:222-242 | the table the accept branch leaves is the one `Relay.Accepted` describes, whatever the pass drew before it |
| Relay.Accepted | my-server.c:222-242 | after the accept branch the table is valid, occupied slots are kept, and only the accepted socket fills an empty slot, the lowest one |
| Relay.Tick | my-server.c:182-273 | a failed `select` halts the loop; the loop halts only on a failed `select` or a console read that is exactly `:q\n` up to its first NUL; such a read always ends the loop |
| Relay.TickFatalIff | my-server.c:202-269 | a pass exits with failure exactly when `accept` fails or some read envelope cannot be split |
| Relay.CrashIffUnsplit | my-server.c:245-252 | some slot reached by the read loop fails exactly when some buffer read this pass cannot be split |
| Relay.TickTable | my-server.c:182-273 | across a pass that continues, the table stays valid; an occupied slot is emptied exactly when its client sent a quit request and is otherwise kept; an empty slot is filled only by the accepted socket, in the lowest empty slot |
| Relay.TickShutdown | my-server.c:271-280 | on `:q\n` the pass runs exactly as it would without the line, reads included, and its output is followed by closing every slot still occupied, the slot accepted in this pass among them; nothing else changes |
| Relay.AcceptInOrder | my-server.c:231-242 | connections arriving at a table whose first n slots are taken get identities n, n+1, ... until the table is full, and none after |
| Relay.FirstComeFirstServed | my-server.c:231-242 | from the initial table, the first ten connections receive identities 0 to 9 in arrival order and later ones receive none |
| Client.Connect | my-client.c:166-173 | `clientId` is the identity envelope's bytes before their first NUL, with no NUL inside; the canvas starts blank |
| Client.OnEvent | my-client.c:113-146 | the client's own X events never add to its list (its `appendStroke` is commented out); Expose redraws the whole list; a press moves the anchor; a motion draws the segment from the old anchor to the pointer, then sends one full buffer, and moves the anchor; any other event changes nothing |
| Client.MotionSends | my-client.c:129-138 | the envelope a motion sends decodes, at any receiver, to exactly the segment the motion drew |
| Client.IdentityFits | my-client.c:166-176 | the identity envelope for any slot gives a one-digit `clientId` that fits its two bytes, and a window title that fits its thirteen |
| Client.DragSends | my-client.c:125-144 | after a press, each motion draws and sends one segment of the chained trace, and the client's own list is unchanged |
| Client.SentStrokesDecode | my-client.c:129-138 | every envelope a drag sends decodes, at any receiver, to the segment drawn locally |
| Client.Receive | my-client.c:60-79 | `M` prints its token, `D` draws and logs its segment, any other tag or an unsplit envelope does nothing; the anchor never moves |
| Client.Typed | my-client.c:204-223 | exactly `:q\n` sends the 7-byte quit request and stops; any other line sends a full-buffer chat envelope of bytes that decodes to the label and the line's first word |
| Client.Tick | my-client.c:189-237 | when `select` succeeds, the client loop ends exactly when the console read is `:q\n` up to its first NUL; it keeps its identity |
| Client.TickQuit | my-client.c:204-236 | on `:q\n` the quit request is written as seven bytes right after what `onEvent` drew, the relay's envelope is still read and rendered as in the same pass without the line, and only then does the loop end |
| Client.TickLog | my-client.c:226-233 | after a pass, the client's list is the old list, with the received segment in front only when the relay's envelope was a stroke |
| EndToEnd.Delivered | my-server.c:252-259 | any non-quit envelope that decodes keeps the sender's slot, reaches every other occupied slot once, and each receiver renders what was written |
| EndToEnd.StrokeRelayed | my-client.c:135-138 | a sent stroke is logged by the relay and forwarded once to every other client, each of which draws and logs exactly that segment |
| EndToEnd.ChatRelayed | my-client.c:216-222 | a typed chat line reaches every other client, which prints the sender's label and the line up to its first white space |
| EndToEnd.QuitReleases | my-client.c:213 | the quit request frees the sender's slot, closes only that connection and is forwarded to nobody |
| EndToEnd.QuitFreesSlot | my-server.c:261-266 | any envelope that decodes to the quit request empties the sender's slot and writes to nobody |
| EndToEnd.FirstTwoSlots | my-server.c:231-242 | the first two clients get slots 0 and 1 |
| EndToEnd.SampleStrokeText | my-client.c:135 | the segment from (10, 20) to (30, 40) travels as `D-10-20-30-40` |
| EndToEnd.StrokeFromFirstClient | my-server.c:255-259 | with slots 0 and 1 occupied, a stroke from client 0 reaches client 1 once and is not echoed to client 0 |
| EndToEnd.ScenarioStroke | my-server.c:255-259 | client 0's `D-10-20-30-40` reaches client 1 and is not echoed back |
| EndToEnd.ScenarioQuit | my-server.c:261-266 | after client 0 quits its slot is empty, and the next client to connect gets identity 0 |

## Left out

- X11 (window, GC, fonts, `XDrawLine`, the event queue): drawing is a `Draw` effect and each X event is an input of the pass. `XEventsQueued` returning 0 is the `Idle` input.
- Sockets, `bind`/`listen`/`connect`, `select` and its 5 µs timeout: select's answer, the accepted descriptor and the bytes read are fields of the event record.
- `printf`, `perror` and `puts` logging: no effect in the model except the chat `Print`.
- Partial reads and writes, and buffer contents after the terminator: each read is one whole envelope, and bytes after the NUL are an arbitrary `pad`.
- Socket, bind and connect failures at start-up, and `createWindow` failure: they happen before the loops modelled here.
- The accepted socket when the table is full: the code leaks it. The model records only that the table is unchanged and nothing is sent.
- Relay.Tick: a console read of zero or fewer bytes compares the stale buffer with `:q\n`; the model treats it as no line at all.
- Relay.Admissible: a console read of the full 1024 bytes, whose terminator C writes past the end of the buffer (undefined behaviour), is excluded by precondition.
- Relay.Admissible: envelopes whose handling is undefined in C are excluded by precondition: a `D` token with fewer than four dash-separated shorts (uninitialised points would be drawn), a `D` value outside the range of a `short` (`%hd` conversion of a value that does not fit is undefined), and a buffer with no NUL.
- Client.Admissible: excluded by precondition are a console read of the full 1024 bytes (terminator past the buffer), a line (the read up to its first NUL) longer than the 1006-byte `tempBuf` or holding a character above 255, and an unsplit incoming envelope tagged `M` or `D`, or an empty one, which leaves the tag or token unset.
- Client.Connect: the first read is assumed to return the identity envelope; a failed first read leaves `clientId` uninitialised and is not modelled.
- Descriptor numbers: the model keeps descriptors as integers (0 is an empty slot) and assumes `accept` returns one not already in the table.
- Strings are byte strings: one Dafny character stands for one C byte, and text with characters above 255 (which C would hold as several bytes) is outside the model; `Client.Typed` and `Client.Admissible` require a byte line.
- Pointer coordinates are taken as shorts already; the int-to-short narrowing into `XPoint` is not modelled.

=== FILE: base.dfy ===
/** Shared vocabulary of the relay and the drawing clients: the protocol
    constants, small wrapper datatypes, the XPoint/stroke geometry and the
    observable effects a tick produces. */
module Base {

  /** Size of every envelope buffer (BUF_SIZE in both programs). */
  const BUF_SIZE: nat := 1024

  /** Number of slots in the relay's connection table. */
  const MAX_CLIENTS: nat := 10

  /** The operator line that ends the relay loop and the client loop. */
  const QUIT_COMMAND: string := ":q\n"

  datatype Option<+T> = None | Some(value: T)

  datatype Result<+T, +E> = Ok(value: T) | Err(error: E)

  /** A C `short`, the coordinate type of an XPoint. */
  type Int16 = x: int | -0x8000 <= x < 0x8000

  datatype Point = Point(x: Int16, y: Int16)

  /** One stroke segment, the payload of `struct Stroke` and of a `D` envelope. */
  datatype Segment = Segment(p0: Point, p1: Point)

  /** What a process does to the outside world during one tick. */
  datatype Effect =
    | Draw(seg: Segment)                    // XDrawLine on the local canvas
    | Print(line: string)                   // one console line
    | Send(payload: string, size: nat)      // client -> relay write: text, bytes written
    | Assign(slot: nat, idText: string)     // relay -> new client: its identity envelope
    | Forward(slot: nat, envelope: seq<char>) // relay -> client: raw envelope, unmodified
    | Close(slot: nat)                      // relay closes a client's connection
}

=== FILE: client.dfy ===
/** A drawing client (`my-client.c`): it takes its identity from the first
    envelope the relay sends, turns each drag motion into a `D` envelope
    without logging it, turns console lines into chat envelopes or the quit
    request, and draws, logs or prints what the relay forwards. */
module Client {
  import opened Base
  import opened CText
  import opened Codec
  import opened Strokes

  /** The client's identity text (`clientId`) and its canvas. */
  datatype Session = Session(id: string, canvas: Canvas)

  /** An identity as the relay hands them out: one decimal digit. */
  predicate ValidId(id: string)
  {
    |id| == 1 && IsDigit(id[0])
  }

  /** The window title, `snprintf(title, 13, "Client[%s]", clientId)`. */
  function Title(id: string): string
  {
    "Client[" + id + "]"
  }

  /** The first `read` after connecting: `strcpy(clientId, buffer)`. */
  function Connect(first: seq<char>): (s: Session)
    requires '\0' in first
    ensures |s.id| < |first| && s.id == first[..|s.id|] && first[|s.id|] == '\0'
    ensures '\0' !in s.id && s.canvas == BLANK
  {
    Session(CString(first), BLANK)
  }

  /** The identity envelope for any slot yields a one-digit `clientId`
      that fits its two bytes, and a title that fits its thirteen. */
  lemma IdentityFits(slot: nat, pad: seq<char>)
    requires slot < MAX_CLIENTS
    ensures '\0' in Frame(IdentityText(slot), pad)
    ensures var id := Connect(Frame(IdentityText(slot), pad)).id;
      && id == IdentityText(slot)
      && ValidId(id) && |id| + 1 <= 2
      && |Title(id)| + 1 <= 13
  {
    var text := IdentityText(slot);
    IdentityOneDigit(slot);
    assert Frame(text, pad)[|text|] == '\0';
    assert '\0' !in text by { assert text[0] != '\0'; }
    FrameCarriesText(text, pad);
  }

  /** The client's `onEvent`: like the relay's, except that a motion sends
      the segment as a `D` envelope (a full buffer) instead of logging it. */
  function OnEvent(c: Canvas, x: XInput): (r: (Canvas, seq<Effect>))
    ensures r.0.log == c.log
    ensures (x.ButtonPress? || x.MotionNotify?) ==> r.0.anchor == x.at
    ensures !(x.ButtonPress? || x.MotionNotify?) ==> r.0 == c
    ensures forall k :: 0 <= k < |r.1| && r.1[k].Send? ==> x.MotionNotify? && r.1[k].size == BUF_SIZE
    ensures x.Expose? ==> r.1 == Replay(c.log)
    ensures x.MotionNotify? ==> |r.1| == 2 && r.1[0] == Draw(Segment(c.anchor, x.at)) && r.1[1].Send?
    ensures !(x.Expose? || x.MotionNotify?) ==> r.1 == []
  {
    match x
    case Expose => (c, Replay(c.log))
    case ButtonPress(p) => (c.(anchor := p), [])
    case MotionNotify(p) =>
      var s := Segment(c.anchor, p);
      (c.(anchor := p), [Draw(s), Send(StrokeText(s), BUF_SIZE)])
    case _ => (c, [])
  }

  /** A run of MotionNotify events at the pointer positions `ps`. */
  function Drag(c: Canvas, ps: seq<Point>): (Canvas, seq<Effect>)
    decreases |ps|
  {
    if |ps| == 0 then (c, [])
    else
      var (c1, o1) := OnEvent(c, MotionNotify(ps[0]));
      var (c2, o2) := Drag(c1, ps[1..]);
      (c2, o1 + o2)
  }

  /** For each segment in order: draw it locally, then send it as the text
      `encode` gives it. */
  function Interleave(ss: seq<Segment>, encode: Segment -> string): (r: seq<Effect>)
    ensures |r| == 2 * |ss|
  {
    if |ss| == 0 then [] else [Draw(ss[0]), Send(encode(ss[0]), BUF_SIZE)] + Interleave(ss[1..], encode)
  }

  /** The effects of a drag: each segment drawn, then sent as a `D` envelope. */
  function DrawAndSend(ss: seq<Segment>): seq<Effect>
  {
    Interleave(ss, StrokeText)
  }

  /** After a ButtonPress at `a`, each motion draws one segment of the
      chained trace and sends exactly that segment, one envelope per motion;
      the local stroke list is left unchanged. */
  lemma {:induction false} DragSends(c: Canvas, a: Point, ps: seq<Point>)
    ensures var r := Drag(OnEvent(c, ButtonPress(a)).0, ps);
      && r.0.log == c.log
      && r.1 == DrawAndSend(Trace(a, ps))
      && (|ps| > 0 ==> r.0.anchor == ps[|ps| - 1])
    decreases |ps|
  {
    if |ps| > 0 {
      var s := Segment(a, ps[0]);
      var sent := [Draw(s), Send(StrokeText(s), BUF_SIZE)];
      var c0 := c.(anchor := a);
      var c1 := c.(anchor := ps[0]);
      assert OnEvent(c, ButtonPress(a)).0 == c0;
      assert OnEvent(c0, MotionNotify(ps[0])) == (c1, sent);
      DragSends(c, ps[0], ps[1..]);
      assert OnEvent(c, ButtonPress(ps[0])).0 == c1;
      var rest := Drag(c1, ps[1..]);
      assert Drag(c0, ps) == (rest.0, sent + rest.1);
      TraceCons(a, ps);
      var tr := Trace(a, ps);
      assert tr[0] == s && tr[1..] == Trace(ps[0], ps[1..]);
      assert DrawAndSend(tr) == sent + DrawAndSend(tr[1..]);
      assert |ps[1..]| > 0 ==> ps[1..][|ps[1..]| - 1] == ps[|ps| - 1];
    }
  }

  /** The 2k-th effect draws the k-th segment and the next one sends it. */
  lemma {:induction false} InterleaveIndex(ss: seq<Segment>, encode: Segment -> string, k: nat)
    requires k < |ss|
    ensures Interleave(ss, encode)[2 * k] == Draw(ss[k])
    ensures Interleave(ss, encode)[2 * k + 1] == Send(encode(ss[k]), BUF_SIZE)
    decreases k
  {
    var tail := Interleave(ss[1..], encode);
    var r := Interleave(ss, encode);
    assert r == [Draw(ss[0]), Send(encode(ss[0]), BUF_SIZE)] + tail;
    if k > 0 {
      InterleaveIndex(ss[1..], encode, k - 1);
      var m := 2 * (k - 1);
      assert ss[1..][k - 1] == ss[k];
      assert r[m + 2] == tail[m];
      assert r[m + 3] == tail[m + 1];
    }
  }

  /** A motion draws the segment from the anchor to the pointer and sends,
      in a full buffer, the envelope that decodes to exactly that segment. */
  lemma MotionSends(c: Canvas, p: Point)
    ensures var r := OnEvent(c, MotionNotify(p)).1;
      && |r| == 2 && r[0] == Draw(Segment(c.anchor, p))
      && r[1].Send? && r[1].size == BUF_SIZE
      && Decode(r[1].payload) == Ok(Stroke(Segment(c.anchor, p)))
  {
    StrokeRoundTrip(Segment(c.anchor, p));
  }

  /** Every envelope a drag sends decodes, at the receiver, to the segment
      drawn locally. */
  lemma SentStrokesDecode(ss: seq<Segment>, k: nat)
    requires k < |ss|
    ensures DrawAndSend(ss)[2 * k] == Draw(ss[k])
    ensures DrawAndSend(ss)[2 * k + 1].Send?
    ensures Decode(DrawAndSend(ss)[2 * k + 1].payload) == Ok(Stroke(ss[k]))
  {
    InterleaveIndex(ss, StrokeText, k);
    StrokeRoundTrip(ss[k]);
  }

  /** The client's behaviour on an envelope is defined: `parse` never
      reads an unset tag or token. An unsplit envelope is harmless only
      when its tag is neither `M` nor `D`. */
  predicate Receivable(env: seq<char>)
  {
    && '\0' in env
    && var text := CString(env);
       Decode(text).Ok? || (|text| > 0 && text[0] != 'M' && text[0] != 'D')
  }

  /** The client's `parse`: print a chat token, draw and log a stroke,
      ignore every other tag (a quit request included) and any envelope it
      cannot split; it never exits. */
  function Receive(c: Canvas, env: seq<char>): (r: (Canvas, seq<Effect>))
    requires Receivable(env)
    ensures r.0.anchor == c.anchor
    ensures forall s :: Decode(CString(env)) == Ok(Stroke(s)) ==>
      r.0.log == AppendStroke(c.log, s) && r.1 == [Draw(s)]
    ensures forall t :: Decode(CString(env)) == Ok(Chat(t)) ==> r == (c, [Print(t)])
    ensures (|| !Decode(CString(env)).Ok?
             || Decode(CString(env)).value.Quit?
             || Decode(CString(env)).value.Unhandled?) ==> r == (c, [])
  {
    match Decode(CString(env))
    case Ok(m) => Render(c, m)
    case Err(_) => (c, [])
  }

  /** A console line, the read up to its first NUL: exactly `:q\n` sends
      the seven-byte quit request and ends the loop; any other line is
      sent as a chat envelope in a full buffer. */
  function Typed(id: string, line: string): (r: (seq<Effect>, bool))
    requires ValidId(id)
    requires '\0' !in line && IsBytes(line) && |line| + 1 <= BUF_SIZE - 18
    ensures r.1 <==> line == QUIT_COMMAND
    ensures |r.0| == 1 && r.0[0].Send?
    ensures r.1 ==> Decode(r.0[0].payload) == Ok(Quit) && r.0[0].size == |r.0[0].payload| + 1 == 7
    ensures !r.1 ==>
      && Decode(r.0[0].payload) == Ok(Chat(Label(id) + Word(line)))
      && IsBytes(r.0[0].payload) && |r.0[0].payload| < r.0[0].size == BUF_SIZE
  {
    if line == QUIT_COMMAND then
      QuitDecodes();
      ([Send(QUIT_TEXT, |QUIT_TEXT| + 1)], true)
    else
      ChatTruncation(id, line);
      ChatTextFits(id, line);
      ([Send(ChatText(id, line), BUF_SIZE)], false)
  }

  /** What one pass of the client loop observes: the X event, whether
      select failed, the console bytes read (when the read returned bytes)
      and the envelope read from the relay (when the read returned bytes). */
  datatype ClientEvent = ClientEvent(
    x: XInput,
    selectFailed: bool,
    stdin: Option<string>,
    incoming: Option<seq<char>>)

  datatype ClientOutcome =
    | Running(session: Session, out: seq<Effect>)
    | Finished(out: seq<Effect>)

  /** The inputs the client handles without undefined behaviour: a console
      read that leaves room for its terminator and whose text, up to the
      first NUL, is bytes that fit the 1006-byte copy; and a receivable
      envelope. */
  predicate Admissible(s: Session, ev: ClientEvent)
  {
    && ValidId(s.id)
    && (ev.stdin.Some? ==>
          var line := CString(ev.stdin.value);
          && |ev.stdin.value| < BUF_SIZE
          && IsBytes(line) && |line| + 1 <= BUF_SIZE - 18)
    && (ev.incoming.Some? ==> Receivable(ev.incoming.value))
  }

  /** One pass of the client loop: `onEvent`, select, the console, the
      relay socket, then the `hasNext` test. */
  function Tick(s: Session, ev: ClientEvent): (o: ClientOutcome)
    requires Admissible(s, ev)
    ensures ev.selectFailed ==> o.Finished?
    ensures !ev.selectFailed ==> (o.Finished? <==> ev.stdin.Some? && QuitCommand(ev.stdin.value))
    ensures o.Running? ==> o.session.id == s.id
  {
    var (c1, o1) := OnEvent(s.canvas, ev.x);
    if ev.selectFailed then Finished(o1)
    else
      var (o2, stop) := if ev.stdin.Some? then Typed(s.id, CString(ev.stdin.value)) else ([], false);
      var (c2, o3) := if ev.incoming.Some? then Receive(c1, ev.incoming.value) else (c1, []);
      if stop then Finished(o1 + o2 + o3) else Running(Session(s.id, c2), o1 + o2 + o3)
  }

  /** On `:q\n` the pass still runs to its end: the seven-byte quit request
      goes out right after what `onEvent` drew, and the relay's envelope is
      then read and rendered exactly as in the same pass without the line;
      only after that does the loop stop. */
  lemma TickQuit(s: Session, ev: ClientEvent)
    requires Admissible(s, ev) && !ev.selectFailed
    requires ev.stdin.Some? && QuitCommand(ev.stdin.value)
    ensures Tick(s, ev.(stdin := None)).Running?
    ensures var drawn := OnEvent(s.canvas, ev.x).1;
      var pass := Tick(s, ev.(stdin := None)).out;
      && |drawn| <= |pass| && pass[..|drawn|] == drawn
      && Tick(s, ev) == Finished(drawn + [Send(QUIT_TEXT, 7)] + pass[|drawn|..])
  {
  }

  /** Only strokes received from the relay grow the client's list: after a
      pass it is the old list, with the received segment in front when the
      relay's envelope was a stroke. */
  lemma TickLog(s: Session, ev: ClientEvent)
    requires Admissible(s, ev) && Tick(s, ev).Running?
    ensures var log := Tick(s, ev).session.canvas.log;
      if ev.incoming.Some? && Decode(CString(ev.incoming.value)).Ok?
         && Decode(CString(ev.incoming.value)).value.Stroke?
      then log == AppendStroke(s.canvas.log, Decode(CString(ev.incoming.value)).value.seg)
      else log == s.canvas.log
  {
    var c1 := OnEvent(s.canvas, ev.x).0;
    assert c1.log == s.canvas.log;
    if ev.incoming.Some? {
      var m := Decode(CString(ev.incoming.value));
      if m.Ok? && m.value.Stroke? {
        assert Receive(c1, ev.incoming.value).0.log == AppendStroke(c1.log, m.value.seg);
      }
    }
  }
}

=== FILE: codec.dfy ===
/** The text format of the envelopes. A reader splits an envelope with
    `sscanf("%c-%s")` into a one-character tag and the first white-space-free
    token after the dash; a `D` token is split again with
    `"%hd-%hd-%hd-%hd"`. Writers use `"D-%d-%d-%d-%d"`,
    `"M-Client[%s]:%s"`, the literal `"S-quit"` and `"%d"` for identities. */
module Codec {
  import opened Base
  import opened CText

  /** Why `sscanf("%c-%s")` stored fewer than two fields. */
  datatype ScanError =
    | NoInput      // empty string: the `%c` hits the end (EOF)
    | NoSeparator  // the second character is not '-'
    | NoToken      // nothing but white space after the '-'

  /** The two fields `sscanf("%c-%s")` stores. */
  datatype Envelope = Envelope(tag: char, token: string)

  /** A split envelope, classified by the reader's `switch`. */
  datatype Message =
    | Quit                               // 'S' with token "quit"
    | Chat(text: string)                 // 'M': the token is printed
    | Stroke(seg: Segment)               // 'D': four shorts
    | Unhandled(tag: char, token: string) // any other tag, or 'S' with another token

  datatype DecodeError =
    | Unsplit(reason: ScanError)  // fewer than two fields
    | BadStroke                   // a 'D' token without four in-range shorts (undefined in C)

  /** `sscanf(text, "%c-%s", &tag, token)`. */
  function ScanEnvelope(text: string): Result<Envelope, ScanError>
  {
    if |text| == 0 then Err(NoInput)
    else if |text| < 2 || text[1] != '-' then Err(NoSeparator)
    else
      var rest := text[2..];
      var k := LeadingSpaces(rest);
      if k == |rest| then Err(NoToken)
      else Ok(Envelope(text[0], Word(rest[k..])))
  }

  /** Two fields are stored exactly when the second character is '-' and
      some non-white-space follows it; only the empty string hits EOF. The
      tag is the first character, and the token is the maximal
      white-space-free run after the white space that follows the dash. */
  lemma ScanEnvelopeSpec(text: string)
    ensures var r := ScanEnvelope(text);
      && (r.Ok? <==> |text| >= 2 && text[1] == '-' && exists k :: 2 <= k < |text| && !IsSpace(text[k]))
      && (r == Err(NoInput) <==> |text| == 0)
      && (r.Ok? ==>
        var start := 2 + LeadingSpaces(text[2..]);
        var end := start + |r.value.token|;
        && r.value.tag == text[0]
        && (forall i :: 2 <= i < start ==> IsSpace(text[i]))
        && 0 < |r.value.token| && end <= |text|
        && text[start..end] == r.value.token
        && NoSpace(r.value.token)
        && (end == |text| || IsSpace(text[end])))
  {
    if |text| >= 2 && text[1] == '-' {
      var rest := text[2..];
      var k := LeadingSpaces(rest);
      if k == |rest| {
        assert forall j :: 2 <= j < |text| ==> IsSpace(text[j]) by {
          forall j | 2 <= j < |text| ensures IsSpace(text[j]) { assert text[j] == rest[j - 2]; }
        }
      } else {
        var body := rest[k..];
        var w := Word(body);
        assert text[2 + k] == rest[k];
        assert body[..|w|] == text[2 + k..2 + k + |w|];
        assert forall i :: 2 <= i < 2 + k ==> IsSpace(text[i]) by {
          forall i | 2 <= i < 2 + k ensures IsSpace(text[i]) { assert text[i] == rest[i - 2]; }
        }
        assert 2 + k + |w| < |text| ==> text[2 + k + |w|] == body[|w|];
      }
    }
  }

  /** `sscanf(token, "%hd-%hd-%hd-%hd", ...)` storing all four values. */
  function ParseStroke(token: string): Option<Segment>
  {
    match ScanShort(token)
    case None => None
    case Some((x0, r0)) =>
      match ScanDash(r0)
      case None => None
      case Some((y0, r1)) =>
        match ScanDash(r1)
        case None => None
        case Some((x1, r2)) =>
          match ScanDash(r2)
          case None => None
          case Some((y1, _)) => Some(Segment(Point(x0, y0), Point(x1, y1)))
  }

  /** A literal '-' in the format, then one `%hd`. */
  function ScanDash(s: string): Option<(Int16, string)>
  {
    if |s| > 0 && s[0] == '-' then ScanShort(s[1..]) else None
  }

  /** What `parse` in either program makes of the text of an envelope. */
  function Decode(text: string): Result<Message, DecodeError>
  {
    match ScanEnvelope(text)
    case Err(e) => Err(Unsplit(e))
    case Ok(Envelope(tag, token)) =>
      if tag == 'S' && token == "quit" then Ok(Quit)
      else if tag == 'M' then Ok(Chat(token))
      else if tag == 'D' then
        match ParseStroke(token)
        case None => Err(BadStroke)
        case Some(seg) => Ok(Stroke(seg))
      else Ok(Unhandled(tag, token))
  }

  /** The C code's behaviour on `text` is defined (no uninitialised point is drawn). */
  predicate Defined(text: string)
  {
    Decode(text) != Err(BadStroke)
  }

  /** `snprintf("D-%d-%d-%d-%d", x0, y0, x1, y1)`. */
  function StrokeText(s: Segment): string
  {
    "D-" + StrokeFields(s)
  }

  function StrokeFields(s: Segment): string
  {
    IntText(s.p0.x) + ("-" + (IntText(s.p0.y) + ("-" + (IntText(s.p1.x) + ("-" + IntText(s.p1.y))))))
  }

  /** `snprintf("M-Client[%s]:%s", clientId, line)`. */
  function ChatText(id: string, line: string): string
  {
    "M-" + Label(id) + line
  }

  /** The label a chat line carries: `Client[<id>]:`. */
  function Label(id: string): string
  {
    "Client[" + id + "]:"
  }

  /** `strcmp(buffer, ":q\n") == 0` once the console read is terminated:
      the bytes read, up to their first NUL, are exactly `:q\n`. */
  predicate QuitCommand(read: seq<char>)
  {
    CString(read) == QUIT_COMMAND
  }

  /** The quit request a client writes. */
  const QUIT_TEXT: string := "S-quit"

  /** `sprintf("%d", slot)`: the identity envelope the relay sends. */
  function IdentityText(slot: nat): string
  {
    IntText(slot)
  }

  /** Every stroke envelope decodes to the segment it was written from,
      negative coordinates included. */
  lemma StrokeRoundTrip(s: Segment)
    ensures Decode(StrokeText(s)) == Ok(Stroke(s))
  {
    var body := StrokeFields(s);
    StrokeFieldsNoSpace(s);
    assert StrokeText(s) == ['D', '-'] + body;
    ScanAfterDash('D', body);
    WordOfToken(body);
    StrokeFieldsScan(s);
    DecodesToStroke(StrokeText(s), body, s);
  }

  /** A `D` envelope decodes to the segment its token yields. */
  lemma DecodesToStroke(text: string, token: string, s: Segment)
    requires ScanEnvelope(text) == Ok(Envelope('D', token))
    ensures ParseStroke(token) == Some(s) ==> Decode(text) == Ok(Stroke(s))
  {
  }

  /** An envelope whose token starts right after the dash is split into its
      tag and the word that starts there. */
  lemma ScanAfterDash(tag: char, body: string)
    requires |body| > 0 && !IsSpace(body[0])
    ensures ScanEnvelope([tag, '-'] + body) == Ok(Envelope(tag, Word(body)))
  {
    var text := [tag, '-'] + body;
    assert text[2..] == body;
    assert LeadingSpaces(body) == 0;
    assert body[0..] == body;
  }

  lemma StrokeFieldsScan(s: Segment)
    ensures ParseStroke(StrokeFields(s)) == Some(s)
  {
    var d := IntText(s.p1.y);
    var c := IntText(s.p1.x) + ("-" + d);
    var b := IntText(s.p0.y) + ("-" + c);
    var a := IntText(s.p0.x) + ("-" + b);
    ScanIntText(s.p0.x, "-" + b);
    assert ("-" + b)[1..] == b;
    ScanIntText(s.p0.y, "-" + c);
    assert ("-" + c)[1..] == c;
    ScanIntText(s.p1.x, "-" + d);
    assert ("-" + d)[1..] == d;
    ScanIntText(s.p1.y, []);
    assert d + [] == d;
  }

  lemma IntTextNoSpace(n: int)
    ensures NoSpace(IntText(n)) && |IntText(n)| > 0 && !IsSpace(IntText(n)[0])
  {
    var digits := NatText(if n < 0 then -n else n);
    assert forall k :: 0 <= k < |digits| ==> IsDigit(digits[k]);
    if n < 0 {
      assert forall k :: 1 <= k < |IntText(n)| ==> IntText(n)[k] == digits[k - 1];
    }
  }

  lemma StrokeFieldsNoSpace(s: Segment)
    ensures NoSpace(StrokeFields(s)) && |StrokeFields(s)| > 0
  {
    IntTextNoSpace(s.p0.x);
    IntTextNoSpace(s.p0.y);
    IntTextNoSpace(s.p1.x);
    IntTextNoSpace(s.p1.y);
    ConcatNoSpace(IntText(s.p1.x), "-" + IntText(s.p1.y));
    ConcatNoSpace(IntText(s.p0.y), "-" + (IntText(s.p1.x) + ("-" + IntText(s.p1.y))));
    ConcatNoSpace(IntText(s.p0.x), "-" + (IntText(s.p0.y) + ("-" + (IntText(s.p1.x) + ("-" + IntText(s.p1.y))))));
  }

  lemma ConcatNoSpace(a: string, b: string)
    requires NoSpace(a) && NoSpace(b)
    ensures NoSpace(a + b)
  {
  }

  /** A stroke envelope is at most 29 characters, so `snprintf` into the
      1024-byte buffer never truncates it. */
  lemma StrokeTextFits(s: Segment)
    ensures |StrokeText(s)| <= 29 < BUF_SIZE
  {
    IntTextShort(s.p0.x);
    IntTextShort(s.p0.y);
    IntTextShort(s.p1.x);
    IntTextShort(s.p1.y);
  }

  lemma IntTextShort(n: Int16)
    ensures |IntText(n)| <= 6
  {
    assert Pow10(5) == 100000;
    NatTextLength(if n < 0 then -(n as int) else n, 5);
  }

  /** A chat line is cut at its first white space: the receiver's token is
      the sender's label followed by the longest white-space-free prefix of
      the typed line. */
  lemma ChatTruncation(id: string, line: string)
    requires |id| > 0 && NoSpace(id)
    ensures Decode(ChatText(id, line)) == Ok(Chat(Label(id) + Word(line)))
  {
    var text := ChatText(id, line);
    var lab := Label(id);
    assert NoSpace(lab) by {
      forall k | 0 <= k < |lab| ensures !IsSpace(lab[k]) {
        if 7 <= k < 7 + |id| { assert lab[k] == id[k - 7]; }
      }
    }
    assert text == ['M', '-'] + (lab + line);
    assert (lab + line)[0] == 'C';
    ScanAfterDash('M', lab + line);
    WordAfterToken(lab, line);
  }

  /** A typed line without white space arrives whole. */
  lemma ChatRoundTrip(id: string, line: string)
    requires |id| > 0 && NoSpace(id) && NoSpace(line)
    ensures Decode(ChatText(id, line)) == Ok(Chat(Label(id) + line))
  {
    ChatTruncation(id, line);
    WordOfToken(line);
  }

  /** A chat envelope is a byte string that fits `snprintf`'s 1024-byte
      buffer whenever the line fits the 1006-byte copy the client makes of
      it. */
  lemma ChatTextFits(id: string, line: string)
    requires |id| == 1 && IsBytes(id)
    requires IsBytes(line) && |line| + 1 <= BUF_SIZE - 18
    ensures IsBytes(ChatText(id, line)) && |ChatText(id, line)| + 1 <= BUF_SIZE
  {
    var text := ChatText(id, line);
    forall k | 0 <= k < |text|
      ensures text[k] as int < 256
    {
      if 9 <= k < 10 {
        assert text[k] == id[0];
      } else if k >= 12 {
        assert text[k] == line[k - 12];
      }
    }
  }

  /** The quit request decodes to Quit. */
  lemma QuitDecodes()
    ensures Decode(QUIT_TEXT) == Ok(Quit)
  {
    assert QUIT_TEXT == ['S', '-'] + "quit";
    ScanAfterDash('S', "quit");
    WordOfToken("quit");
  }

  /** `S-`, optional white space, `quit`, then the end or white space. */
  predicate QuitShape(text: string)
  {
    && |text| >= 2 && text[0] == 'S' && text[1] == '-'
    && var start := 2 + LeadingSpaces(text[2..]);
       && start + 4 <= |text|
       && text[start..start + 4] == "quit"
       && (start + 4 == |text| || IsSpace(text[start + 4]))
  }

  /** An envelope is a quit request exactly when it has the quit shape.
      Everything else (other tags, `S-` with another token) is not. */
  lemma QuitIff(text: string)
    ensures Decode(text) == Ok(Quit) <==> QuitShape(text)
  {
    if Decode(text) == Ok(Quit) {
      QuitHasShape(text);
    }
    if QuitShape(text) {
      ShapeIsQuit(text);
    }
  }

  lemma QuitHasShape(text: string)
    requires Decode(text) == Ok(Quit)
    ensures QuitShape(text)
  {
    var r := ScanEnvelope(text);
    assert r.Ok? && r.value.tag == 'S' && r.value.token == "quit";
  }

  lemma ShapeIsQuit(text: string)
    requires QuitShape(text)
    ensures Decode(text) == Ok(Quit)
  {
    var start := 2 + LeadingSpaces(text[2..]);
    assert text[start] == "quit"[0];
    var r := ScanEnvelope(text);
    assert r.Ok?;
    var tok := r.value.token;
    assert tok == text[start..start + |tok|];
    forall i | start <= i < start + 4
      ensures !IsSpace(text[i])
    {
      assert text[i] == "quit"[i - start];
    }
    assert |tok| <= 4;
    assert |tok| >= 4;
    assert tok == "quit";
  }

  /** `sscanf("%c-%s")` stores two fields, and the relay survives, exactly
      when the second character is '-' and some non-white-space follows it. */
  lemma UnsplitIff(text: string)
    ensures Decode(text).Err? && Decode(text).error.Unsplit?
        <==> !(|text| >= 2 && text[1] == '-' && exists k :: 2 <= k < |text| && !IsSpace(text[k]))
  {
  }

  /** For a defined envelope, decoding fails exactly when it cannot be split. */
  lemma DefinedFailsUnsplit(text: string)
    requires Defined(text)
    ensures Decode(text).Err? <==> ScanEnvelope(text).Err?
  {
  }

  /** An identity below MAX_CLIENTS is written as a single digit, so the
      client's two-byte `clientId` holds it with its terminator. */
  lemma IdentityOneDigit(slot: nat)
    requires slot < MAX_CLIENTS
    ensures |IdentityText(slot)| == 1 && IsDigit(IdentityText(slot)[0])
    ensures DigitValue(IdentityText(slot)[0]) == slot
  {
    NatTextOneDigit(slot);
  }
}

=== FILE: ctext.dfy ===
/** The C library text primitives both programs lean on: NUL-terminated
    buffers, `isspace`, the `%s` token rule, `%d` formatting and `%hd`
    scanning. */
module CText {
  import opened Base

  /** `isspace` in the C locale: space, \t, \n, \v, \f, \r. */
  predicate IsSpace(c: char) {
    c == ' ' || c == '\t' || c == '\n' || c == '\r' || c as int == 11 || c as int == 12
  }

  predicate IsDigit(c: char) {
    '0' <= c <= '9'
  }

  predicate NoSpace(s: string) {
    forall k :: 0 <= k < |s| ==> !IsSpace(s[k])
  }

  /** A C string stands for bytes: one character per byte, each below 256. */
  predicate IsBytes(s: string) {
    forall k :: 0 <= k < |s| ==> s[k] as int < 256
  }

  predicate AllDigits(s: string) {
    forall k :: 0 <= k < |s| ==> IsDigit(s[k])
  }

  /** The string a C function sees in a buffer: everything before the first NUL. */
  function CString(buf: seq<char>): (s: string)
    ensures |s| <= |buf| && s == buf[..|s|]
    ensures '\0' !in s
    ensures |s| < |buf| ==> buf[|s|] == '\0'
  {
    if |buf| == 0 || buf[0] == '\0' then [] else [buf[0]] + CString(buf[1..])
  }

  /** A fixed-size envelope as written on the wire: the text, its terminator,
      and whatever bytes happen to follow in the buffer. */
  function Frame(text: string, pad: seq<char>): seq<char>
  {
    text + ['\0'] + pad
  }

  /** Whatever padding follows the terminator, a reader sees exactly the text. */
  lemma FrameCarriesText(text: string, pad: seq<char>)
    requires '\0' !in text
    ensures CString(Frame(text, pad)) == text
  {
    var f := Frame(text, pad);
    forall i | 0 <= i < |text|
      ensures f[i] != '\0'
    {
      assert f[i] == text[i];
    }
    assert f[|text|] == '\0';
    assert f[..|text|] == text;
  }

  /** Number of leading white-space characters (what `%s` and `%hd` skip). */
  function LeadingSpaces(s: string): (k: nat)
    ensures k <= |s|
    ensures forall i :: 0 <= i < k ==> IsSpace(s[i])
    ensures k < |s| ==> !IsSpace(s[k])
  {
    if |s| > 0 && IsSpace(s[0]) then 1 + LeadingSpaces(s[1..]) else 0
  }

  /** Length of the longest white-space-free prefix. */
  function WordLength(s: string): (m: nat)
    ensures m <= |s|
    ensures forall i :: 0 <= i < m ==> !IsSpace(s[i])
    ensures m < |s| ==> IsSpace(s[m])
  {
    if |s| > 0 && !IsSpace(s[0]) then 1 + WordLength(s[1..]) else 0
  }

  /** The longest white-space-free prefix: what `%s` stores once it has
      skipped leading white space. */
  function Word(s: string): string
  {
    s[..WordLength(s)]
  }

  /** A white-space-free prefix extends the word that follows it. */
  lemma WordAfterToken(p: string, s: string)
    requires NoSpace(p)
    ensures Word(p + s) == p + Word(s)
  {
    var m := WordLength(s);
    forall i | 0 <= i < |p| + m
      ensures !IsSpace((p + s)[i])
    {
      if i < |p| {
        assert (p + s)[i] == p[i];
      } else {
        assert (p + s)[i] == s[i - |p|];
      }
    }
    if |p| + m < |p + s| {
      assert (p + s)[|p| + m] == s[m];
    }
    assert WordLength(p + s) == |p| + m;
    assert (p + s)[..|p| + m] == p + s[..m];
  }

  /** A white-space-free string is its own word. */
  lemma WordOfToken(s: string)
    requires NoSpace(s)
    ensures Word(s) == s
  {
    WordAfterToken(s, []);
    assert s + [] == s;
  }

  /** Length of the longest prefix of decimal digits. */
  function DigitRun(s: string): (k: nat)
    ensures k <= |s|
    ensures forall i :: 0 <= i < k ==> IsDigit(s[i])
    ensures k < |s| ==> !IsDigit(s[k])
  {
    if |s| > 0 && IsDigit(s[0]) then 1 + DigitRun(s[1..]) else 0
  }

  function DigitChar(d: nat): (c: char)
    requires d < 10
    ensures IsDigit(c)
  {
    ('0' as int + d) as char
  }

  function DigitValue(c: char): (d: nat)
    requires IsDigit(c)
    ensures d < 10 && DigitChar(d) == c
  {
    c as int - '0' as int
  }

  /** The value of a string of decimal digits, most significant first. */
  function DigitsValue(s: string): nat
    requires AllDigits(s)
  {
    if |s| == 0 then 0 else 10 * DigitsValue(s[..|s| - 1]) + DigitValue(s[|s| - 1])
  }

  /** Decimal text of a natural number without leading zeros. */
  function NatText(n: nat): (s: string)
    ensures 1 <= |s| && AllDigits(s)
    decreases n
  {
    if n < 10 then [DigitChar(n)] else NatText(n / 10) + [DigitChar(n % 10)]
  }

  /** `printf("%d", n)`. */
  function IntText(n: int): string
  {
    if n < 0 then "-" + NatText(-n) else NatText(n)
  }

  /** Reading back the digits `NatText` writes gives the number. */
  lemma {:induction false} NatTextValue(n: nat)
    ensures DigitsValue(NatText(n)) == n
    decreases n
  {
    if n >= 10 {
      var s := NatText(n);
      assert s[..|s| - 1] == NatText(n / 10);
      NatTextValue(n / 10);
    }
  }

  /** Numbers below 10 are written with one digit, and only those. */
  lemma NatTextOneDigit(n: nat)
    ensures |NatText(n)| == 1 <==> n < 10
  {
    if n >= 10 {
      assert |NatText(n)| == |NatText(n / 10)| + 1;
    }
  }

  function Pow10(k: nat): (r: nat)
    ensures r >= 1
  {
    if k == 0 then 1 else 10 * Pow10(k - 1)
  }

  /** A number below 10^k is written with at most k digits. */
  lemma {:induction false} NatTextLength(n: nat, k: nat)
    requires 1 <= k && n < Pow10(k)
    ensures |NatText(n)| <= k
    decreases n
  {
    if n >= 10 {
      assert k >= 2;
      assert n / 10 < Pow10(k - 1);
      NatTextLength(n / 10, k - 1);
    }
  }

  /** One `%hd` conversion: skip white space, an optional sign, then the
      longest run of digits. None when no digit follows, or when the value
      does not fit a `short` (undefined behaviour in C). On success it
      returns the value and the unread rest. */
  function ScanShort(s: string): (r: Option<(Int16, string)>)
    ensures r.Some? ==> |r.value.1| < |s|
  {
    var t := s[LeadingSpaces(s)..];
    if |t| > 0 && t[0] == '-' then ScanMagnitude(t[1..], true)
    else if |t| > 0 && t[0] == '+' then ScanMagnitude(t[1..], false)
    else ScanMagnitude(t, false)
  }

  /** The digit part of a `%hd` conversion, after the sign. */
  function ScanMagnitude(body: string, negative: bool): (r: Option<(Int16, string)>)
    ensures r.Some? ==> |r.value.1| < |body|
  {
    var k := DigitRun(body);
    if k == 0 then None
    else
      var v := Signed(DigitsValue(body[..k]), negative);
      if -0x8000 <= v < 0x8000 then Some((v, body[k..])) else None
  }

  function Signed(mag: nat, negative: bool): int
  {
    if negative then -(mag as int) else mag
  }

  /** The digits scanned from `digits + rest` are exactly `digits`. */
  lemma ScanMagnitudeOf(digits: string, rest: string, negative: bool)
    requires 1 <= |digits| && AllDigits(digits)
    requires |rest| == 0 || !IsDigit(rest[0])
    requires -0x8000 <= Signed(DigitsValue(digits), negative) < 0x8000
    ensures ScanMagnitude(digits + rest, negative) == Some((Signed(DigitsValue(digits), negative), rest))
  {
    var body := digits + rest;
    forall i | 0 <= i < |digits|
      ensures IsDigit(body[i])
    {
      assert body[i] == digits[i];
    }
    if |digits| < |body| {
      assert body[|digits|] == rest[0];
    }
    assert DigitRun(body) == |digits|;
    assert body[..|digits|] == digits;
    assert body[|digits|..] == rest;
  }

  /** `%hd` reads back what `%d` wrote, stopping right at the next non-digit. */
  lemma ScanIntText(n: Int16, rest: string)
    requires |rest| == 0 || !IsDigit(rest[0])
    ensures ScanShort(IntText(n) + rest) == Some((n, rest))
  {
    var m: nat := if n < 0 then -(n as int) else n;
    var digits := NatText(m);
    NatTextValue(m);
    ScanSigned(digits, rest, n < 0);
    assert IntText(n) + rest == (if n < 0 then "-" else "") + (digits + rest);
  }

  /** A sign, the digits and a rest that does not start with a digit scan
      to the signed value of the digits, leaving the rest. */
  lemma ScanSigned(digits: string, rest: string, negative: bool)
    requires 1 <= |digits| && AllDigits(digits)
    requires |rest| == 0 || !IsDigit(rest[0])
    requires -0x8000 <= Signed(DigitsValue(digits), negative) < 0x8000
    ensures ScanShort((if negative then "-" else "") + (digits + rest))
         == Some((Signed(DigitsValue(digits), negative), rest))
  {
    ScanMagnitudeOf(digits, rest, negative);
    ScanAfterSign(digits + rest, negative);
  }

  /** A `%hd` conversion over text that starts with a digit, optionally
      after a minus sign, reads the magnitude right there. */
  lemma ScanAfterSign(body: string, negative: bool)
    requires |body| > 0 && IsDigit(body[0])
    ensures ScanShort((if negative then "-" else "") + body) == ScanMagnitude(body, negative)
  {
    var s := (if negative then "-" else "") + body;
    assert LeadingSpaces(s) == 0;
    assert s[0..] == s;
    if negative {
      assert s[1..] == body;
    } else {
      assert s == body;
    }
  }
}

=== FILE: endtoend.dfy ===
/** Properties that span the relay and its clients: what one client writes,
    the relay forwards unmodified, and every other client decodes to what
    the writer meant. */
module EndToEnd {
  import opened Base
  import opened CText
  import opened Codec
  import opened Strokes
  import Relay
  import Client

  /** Any envelope that decodes to something other than the quit request,
      framed in a buffer, is defined for the relay and for every client; the
      relay keeps the slot, forwards the buffer once to every other occupied
      slot, and each client renders what the writer encoded. */
  lemma Delivered(st: Relay.RelayState, i: nat, j: nat, text: string, pad: seq<char>, c: Canvas)
    requires |st.table| == MAX_CLIENTS && i < MAX_CLIENTS && st.table[i] != 0
    requires '\0' !in text && Decode(text).Ok? && Decode(text).value != Quit
    ensures var env := Frame(text, pad);
      && Relay.Receivable(env) && Client.Receivable(env)
      && Relay.Serve(st, i, env).Some?
      && Relay.Serve(st, i, env).value.0.table == st.table
      && Relay.Forwards(Relay.Serve(st, i, env).value.1, j)
         == (if j < MAX_CLIENTS && st.table[j] != 0 && j != i then 1 else 0)
      && Client.Receive(c, env) == Render(c, Decode(text).value)
  {
    var env := Frame(text, pad);
    FrameCarriesText(text, pad);
    assert env[|text|] == '\0';
    assert CString(env) == text;
    assert Relay.Receivable(env);
    assert Client.Receivable(env);
    assert ScanEnvelope(text).Ok?;
    var r := Relay.Serve(st, i, env);
    assert r.Some?;
    assert st.table[i := 0] != st.table by { assert st.table[i := 0][i] == 0; }
    assert r.value.0.table == st.table;
    Relay.ServeForwardsOnce(st, i, env, j);
  }

  /** A stroke a client sends reaches the relay's own list and is forwarded
      once to every other occupied slot; each receiving client draws and
      logs exactly that segment. */
  lemma StrokeRelayed(st: Relay.RelayState, i: nat, j: nat, seg: Segment, pad: seq<char>, c: Canvas)
    requires |st.table| == MAX_CLIENTS && i < MAX_CLIENTS && st.table[i] != 0
    ensures var env := Frame(StrokeText(seg), pad);
      && Relay.Receivable(env) && Client.Receivable(env)
      && Relay.Serve(st, i, env).Some?
      && Relay.Serve(st, i, env).value.0.table == st.table
      && Relay.Serve(st, i, env).value.0.canvas.log == AppendStroke(st.canvas.log, seg)
      && Relay.Forwards(Relay.Serve(st, i, env).value.1, j)
         == (if j < MAX_CLIENTS && st.table[j] != 0 && j != i then 1 else 0)
      && Client.Receive(c, env) == (c.(log := AppendStroke(c.log, seg)), [Draw(seg)])
  {
    var text := StrokeText(seg);
    StrokeRoundTrip(seg);
    StrokeTextNoNul(seg);
    Delivered(st, i, j, text, pad, c);
    FrameCarriesText(text, pad);
  }

  /** A typed chat line reaches every other client, which prints the
      sender's label followed by the line up to its first white space. */
  lemma ChatRelayed(st: Relay.RelayState, i: nat, j: nat, id: string, line: string, pad: seq<char>, c: Canvas)
    requires |st.table| == MAX_CLIENTS && i < MAX_CLIENTS && st.table[i] != 0
    requires Client.ValidId(id) && line != QUIT_COMMAND
    requires '\0' !in line && IsBytes(line) && |line| + 1 <= BUF_SIZE - 18
    ensures var env := Frame(Client.Typed(id, line).0[0].payload, pad);
      && Relay.Receivable(env) && Client.Receivable(env)
      && Relay.Serve(st, i, env).Some?
      && Relay.Serve(st, i, env).value.0.table == st.table
      && Relay.Forwards(Relay.Serve(st, i, env).value.1, j)
         == (if j < MAX_CLIENTS && st.table[j] != 0 && j != i then 1 else 0)
      && Client.Receive(c, env) == (c, [Print(Label(id) + Word(line))])
  {
    var r := Client.Typed(id, line);
    assert !r.1;
    var text := r.0[0].payload;
    assert Decode(text) == Ok(Chat(Label(id) + Word(line)));
    assert text == ChatText(id, line);
    ChatTextNoNul(id, line);
    Delivered(st, i, j, text, pad, c);
  }

  lemma ChatTextNoNul(id: string, line: string)
    requires Client.ValidId(id) && '\0' !in line
    ensures '\0' !in ChatText(id, line)
  {
    assert id[0] != '\0';
    assert '\0' !in id;
  }

  /** A client's quit request frees its slot at once, is forwarded to
      nobody, and closes only that client's connection. */
  lemma QuitReleases(st: Relay.RelayState, i: nat, j: nat, pad: seq<char>)
    requires |st.table| == MAX_CLIENTS && i < MAX_CLIENTS && st.table[i] != 0
    ensures var env := Frame(QUIT_TEXT, pad);
      && Relay.Receivable(env)
      && Relay.Serve(st, i, env) == Some((st.(table := st.table[i := 0]), [Close(i)]))
      && Relay.Forwards(Relay.Serve(st, i, env).value.1, j) == 0
  {
    QuitDecodes();
    QuitTextHasNoNul();
    QuitFreesSlot(st, i, j, QUIT_TEXT, pad);
  }

  /** Any envelope that decodes to the quit request empties the sender's
      slot and writes to nobody. */
  lemma QuitFreesSlot(st: Relay.RelayState, i: nat, j: nat, text: string, pad: seq<char>)
    requires |st.table| == MAX_CLIENTS && i < MAX_CLIENTS && st.table[i] != 0
    requires '\0' !in text && Decode(text) == Ok(Quit)
    ensures var env := Frame(text, pad);
      && Relay.Receivable(env)
      && Relay.Serve(st, i, env) == Some((st.(table := st.table[i := 0]), [Close(i)]))
      && Relay.Forwards(Relay.Serve(st, i, env).value.1, j) == 0
  {
    var env := Frame(text, pad);
    FrameCarriesText(text, pad);
    assert env[|text|] == '\0';
    Relay.ServeForwardsOnce(st, i, env, j);
  }

  lemma QuitTextHasNoNul()
    ensures '\0' !in QUIT_TEXT
  {
    assert forall k :: 0 <= k < |QUIT_TEXT| ==> QUIT_TEXT[k] != '\0';
  }

  /** No decimal rendering contains a NUL, so a frame ends exactly where
      the text does. */
  lemma IntTextNoNul(n: int)
    ensures '\0' !in IntText(n)
  {
    var m := if n < 0 then -n else n;
    var digits := NatText(m);
    assert AllDigits(digits);
    assert '\0' !in digits by {
      forall k | 0 <= k < |digits| ensures digits[k] != '\0' {
        assert IsDigit(digits[k]);
      }
    }
  }

  lemma StrokeTextNoNul(s: Segment)
    ensures '\0' !in StrokeText(s)
  {
    IntTextNoNul(s.p0.x);
    IntTextNoNul(s.p0.y);
    IntTextNoNul(s.p1.x);
    IntTextNoNul(s.p1.y);
  }

  /** The table after the first two clients connect, with descriptors 4
      and 5. */
  const TWO_CLIENTS: Relay.Table := Relay.EMPTY[0 := 4][1 := 5]

  /** The first two clients to connect get slots 0 and 1. */
  lemma FirstTwoSlots()
    ensures Relay.Accept(Relay.EMPTY, 4) == (Relay.EMPTY[0 := 4], Some(0))
    ensures Relay.Accept(Relay.EMPTY[0 := 4], 5) == (TWO_CLIENTS, Some(1))
  {
    assert Relay.EMPTY[0] == 0;
    assert Relay.EMPTY[0 := 4][0] != 0 && Relay.EMPTY[0 := 4][1] == 0;
  }

  /** The stroke from (10, 20) to (30, 40) travels as `D-10-20-30-40`. */
  lemma SampleStrokeText()
    ensures StrokeText(Segment(Point(10, 20), Point(30, 40))) == "D-10-20-30-40"
  {
    TensText(1);
    TensText(2);
    TensText(3);
    TensText(4);
  }

  /** A multiple of ten below a hundred is written as its tens digit and `0`. */
  lemma TensText(d: nat)
    requires 1 <= d < 10
    ensures IntText(10 * d) == [DigitChar(d), '0']
  {
    assert NatText(10 * d) == NatText(d) + [DigitChar(0)];
  }

  /** After slot 0 is released, the next client to connect gets identity 0. */
  lemma ReleasedSlotReused(t: Relay.Table)
    requires |t| == MAX_CLIENTS && t[0] == 0
    ensures Relay.Accept(t, 6).1 == Some(0)
  {
  }

  /** With clients in slots 0 and 1, any stroke from client 0 reaches
      client 1 and is not echoed back. */
  lemma StrokeFromFirstClient(t: Relay.Table, seg: Segment, pad: seq<char>)
    requires |t| == MAX_CLIENTS && t[0] != 0 && t[1] != 0
    ensures Relay.Receivable(Frame(StrokeText(seg), pad))
    ensures Relay.Serve(Relay.RelayState(t, BLANK), 0, Frame(StrokeText(seg), pad)).Some?
    ensures var out := Relay.Serve(Relay.RelayState(t, BLANK), 0, Frame(StrokeText(seg), pad)).value.1;
      Relay.Forwards(out, 1) == 1 && Relay.Forwards(out, 0) == 0
  {
    var st := Relay.RelayState(t, BLANK);
    StrokeRelayed(st, 0, 1, seg, pad, BLANK);
    StrokeRelayed(st, 0, 0, seg, pad, BLANK);
  }

  /** Client 0's stroke `D-10-20-30-40` reaches client 1 and is not echoed
      back to client 0. */
  lemma ScenarioStroke(pad: seq<char>)
    ensures StrokeText(Segment(Point(10, 20), Point(30, 40))) == "D-10-20-30-40"
    ensures Relay.Receivable(Frame("D-10-20-30-40", pad))
    ensures Relay.Serve(Relay.RelayState(TWO_CLIENTS, BLANK), 0, Frame("D-10-20-30-40", pad)).Some?
    ensures var out := Relay.Serve(Relay.RelayState(TWO_CLIENTS, BLANK), 0, Frame("D-10-20-30-40", pad)).value.1;
      && Relay.Forwards(out, 1) == 1 && Relay.Forwards(out, 0) == 0
  {
    SampleStrokeText();
    assert TWO_CLIENTS[0] == 4 && TWO_CLIENTS[1] == 5 && |TWO_CLIENTS| == MAX_CLIENTS;
    StrokeFromFirstClient(TWO_CLIENTS, Segment(Point(10, 20), Point(30, 40)), pad);
  }

  /** Client 0 quits; its slot is freed and the next client to connect
      gets identity 0. */
  lemma ScenarioQuit(pad: seq<char>)
    ensures Relay.Receivable(Frame(QUIT_TEXT, pad))
    ensures Relay.Serve(Relay.RelayState(TWO_CLIENTS, BLANK), 0, Frame(QUIT_TEXT, pad)).Some?
    ensures var t3 := Relay.Serve(Relay.RelayState(TWO_CLIENTS, BLANK), 0, Frame(QUIT_TEXT, pad)).value.0.table;
      && t3 == TWO_CLIENTS[0 := 0]
      && Relay.Accept(t3, 6).1 == Some(0)
  {
    assert TWO_CLIENTS[0] == 4 && |TWO_CLIENTS| == MAX_CLIENTS;
    QuitReleases(Relay.RelayState(TWO_CLIENTS, BLANK), 0, 1, pad);
    ReleasedSlotReused(TWO_CLIENTS[0 := 0]);
  }
}

=== FILE: relay.dfy ===
/** The relay process (`my-server.c`): a table of MAX_CLIENTS connection
    slots (0 marks an empty slot), first-fit allocation on accept, fan-out of
    every non-quit envelope to the other occupied slots, release on a quit
    request, and shutdown on the operator's `:q` line. One call of `Tick` is
    one pass of the `while (1)` loop, with select's answer, the accepted
    socket and the bytes read given as an event record. */
module Relay {
  import opened Base
  import opened CText
  import opened Codec
  import opened Strokes

  /** `int clients[MAX_CLIENTS]`: a socket descriptor per slot, 0 when empty. */
  type Table = seq<int>

  /** The table has MAX_CLIENTS slots, holds descriptors, and never holds
      the same live descriptor twice. */
  predicate ValidTable(t: Table)
  {
    && |t| == MAX_CLIENTS
    && (forall i :: 0 <= i < |t| ==> t[i] >= 0)
    && (forall i, j :: 0 <= i < j < |t| && t[i] != 0 ==> t[i] != t[j])
  }

  /** `int clients[MAX_CLIENTS] = {0}`. */
  const EMPTY: Table := seq(MAX_CLIENTS, _ => 0)

  /** The lowest empty slot at or after `from`. */
  function FirstFree(t: Table, from: nat): (r: Option<nat>)
    requires from <= |t|
    ensures r.Some? ==> from <= r.value < |t| && t[r.value] == 0
    ensures r.Some? ==> forall j :: from <= j < r.value ==> t[j] != 0
    ensures r.None? <==> forall j :: from <= j < |t| ==> t[j] != 0
    decreases |t| - from
  {
    if from == |t| then None
    else if t[from] == 0 then Some(from)
    else FirstFree(t, from + 1)
  }

  /** The slot loop after `accept`: store the socket in the lowest empty
      slot and report that slot; leave a full table alone. */
  function Accept(t: Table, h: int): (r: (Table, Option<nat>))
    requires h > 0
    ensures |r.0| == |t|
    ensures r.1.None? <==> forall j :: 0 <= j < |t| ==> t[j] != 0
    ensures r.1.None? ==> r.0 == t
    ensures r.1.Some? ==>
      && r.1.value < |t| && t[r.1.value] == 0
      && (forall j :: 0 <= j < r.1.value ==> t[j] != 0)
      && r.0 == t[r.1.value := h]
  {
    match FirstFree(t, 0)
    case None => (t, None)
    case Some(i) => (t[i := h], Some(i))
  }

  /** Storing a fresh descriptor keeps the table valid. */
  lemma AcceptKeepsValid(t: Table, h: int)
    requires ValidTable(t) && h > 0 && h !in t
    ensures ValidTable(Accept(t, h).0)
  {
  }

  /** Emptying slots keeps the table valid. */
  lemma ReleaseKeepsValid(t: Table, u: Table)
    requires ValidTable(t) && |u| == |t|
    requires forall k :: 0 <= k < |t| ==> u[k] == t[k] || u[k] == 0
    ensures ValidTable(u)
  {
  }

  /** The inner `for j` loop: the received envelope, unmodified, to every
      occupied slot from `j` on except the sender's. */
  function FanOut(t: Table, from: nat, env: seq<char>, j: nat): (r: seq<Effect>)
    requires j <= |t|
    ensures forall k :: 0 <= k < |r| ==>
      && r[k].Forward? && r[k].envelope == env
      && j <= r[k].slot < |t| && t[r[k].slot] != 0 && r[k].slot != from
    decreases |t| - j
  {
    if j == |t| then []
    else (if t[j] != 0 && j != from then [Forward(j, env)] else []) + FanOut(t, from, env, j + 1)
  }

  /** How many envelopes `out` writes to `slot`. */
  function Forwards(out: seq<Effect>, slot: nat): nat
  {
    if |out| == 0 then 0
    else (if out[0].Forward? && out[0].slot == slot then 1 else 0) + Forwards(out[1..], slot)
  }

  lemma {:induction false} ForwardsAppend(a: seq<Effect>, b: seq<Effect>, slot: nat)
    ensures Forwards(a + b, slot) == Forwards(a, slot) + Forwards(b, slot)
    decreases |a|
  {
    if |a| > 0 {
      assert (a + b)[0] == a[0];
      assert (a + b)[1..] == a[1..] + b;
      ForwardsAppend(a[1..], b, slot);
    } else {
      assert a + b == b;
    }
  }

  lemma {:induction false} NoForwards(out: seq<Effect>, slot: nat)
    requires forall k :: 0 <= k < |out| ==> !out[k].Forward?
    ensures Forwards(out, slot) == 0
    decreases |out|
  {
    if |out| > 0 {
      NoForwards(out[1..], slot);
    }
  }

  /** Fan-out writes exactly once to every occupied slot other than the
      sender's, and never to the sender or to an empty slot. */
  lemma {:induction false} FanOutOnce(t: Table, from: nat, env: seq<char>, j: nat, slot: nat)
    requires j <= |t|
    ensures Forwards(FanOut(t, from, env, j), slot)
         == (if j <= slot < |t| && t[slot] != 0 && slot != from then 1 else 0)
    decreases |t| - j
  {
    if j < |t| {
      var head: seq<Effect> := if t[j] != 0 && j != from then [Forward(j, env)] else [];
      ForwardsAppend(head, FanOut(t, from, env, j + 1), slot);
      FanOutOnce(t, from, env, j + 1, slot);
      if |head| == 1 {
        assert head[1..] == [];
      }
    }
  }

  /** The shutdown loop: close every occupied slot, in index order. */
  function CloseAll(t: Table, j: nat): (r: seq<Effect>)
    requires j <= |t|
    ensures forall k :: 0 <= k < |r| ==> r[k].Close? && j <= r[k].slot < |t| && t[r[k].slot] != 0
    ensures forall i :: j <= i < |t| && t[i] != 0 ==> Close(i) in r
    decreases |t| - j
  {
    if j == |t| then []
    else (if t[j] != 0 then [Close(j)] else []) + CloseAll(t, j + 1)
  }

  /** The relay's own state besides its sockets: the stroke list and anchor. */
  datatype RelayState = RelayState(table: Table, canvas: Canvas)

  /** The relay's `onEvent`: Expose replays the list, ButtonPress sets the
      anchor, MotionNotify draws and logs anchor -> pointer and moves the
      anchor. The relay's own strokes are never sent to anyone. */
  function OnEvent(c: Canvas, x: XInput): (r: (Canvas, seq<Effect>))
    ensures forall k :: 0 <= k < |r.1| ==> r.1[k].Draw?
    ensures r.0.log == c.log || (x.MotionNotify? && r.0.log == AppendStroke(c.log, Segment(c.anchor, x.at)))
    ensures (x.ButtonPress? || x.MotionNotify?) ==> r.0.anchor == x.at
    ensures !(x.ButtonPress? || x.MotionNotify?) ==> r.0 == c
    ensures x.Expose? ==> r.1 == Replay(c.log)
    ensures x.MotionNotify? ==>
      && r.0.log == AppendStroke(c.log, Segment(c.anchor, x.at))
      && r.1 == [Draw(Segment(c.anchor, x.at))]
    ensures !(x.Expose? || x.MotionNotify?) ==> r.1 == []
  {
    match x
    case Expose => (c, Replay(c.log))
    case ButtonPress(p) => (c.(anchor := p), [])
    case MotionNotify(p) =>
      var s := Segment(c.anchor, p);
      (Canvas(AppendStroke(c.log, s), p), [Draw(s)])
    case _ => (c, [])
  }

  /** A run of MotionNotify events at the pointer positions `ps`. */
  function Drag(c: Canvas, ps: seq<Point>): (Canvas, seq<Effect>)
    decreases |ps|
  {
    if |ps| == 0 then (c, [])
    else
      var (c1, o1) := OnEvent(c, MotionNotify(ps[0]));
      var (c2, o2) := Drag(c1, ps[1..]);
      (c2, o1 + o2)
  }

  /** After a ButtonPress at `a`, each motion draws and logs the segment from
      the previous pointer position (the press first) to the new one; the
      logged segments are exactly the chained trace, and the anchor ends at
      the last pointer position. */
  lemma {:induction false} DragChain(c: Canvas, a: Point, ps: seq<Point>)
    ensures var r := Drag(OnEvent(c, ButtonPress(a)).0, ps);
      && r.0.log == AppendAll(c.log, Trace(a, ps))
      && r.1 == Replay(Trace(a, ps))
      && (|ps| > 0 ==> r.0.anchor == ps[|ps| - 1])
    decreases |ps|
  {
    if |ps| > 0 {
      var s := Segment(a, ps[0]);
      var c1 := Canvas(AppendStroke(c.log, s), ps[0]);
      var pressed := c.(anchor := a);
      assert OnEvent(c, ButtonPress(a)).0 == pressed;
      assert OnEvent(pressed, MotionNotify(ps[0])) == (c1, [Draw(s)]);
      var rest := Drag(c1, ps[1..]);
      assert Drag(pressed, ps) == (rest.0, [Draw(s)] + rest.1);
      DragChain(c1, ps[0], ps[1..]);
      assert OnEvent(c1, ButtonPress(ps[0])).0 == c1;
      TraceCons(a, ps);
      var tr := Trace(a, ps);
      assert tr[0] == s && tr[1..] == Trace(ps[0], ps[1..]);
      assert AppendAll(c.log, tr) == AppendAll(c1.log, tr[1..]);
      assert Replay(tr) == [Draw(s)] + Replay(tr[1..]);
      assert |ps[1..]| > 0 ==> ps[1..][|ps[1..]| - 1] == ps[|ps| - 1];
    }
  }

  /** The relay's behaviour on this envelope is defined: it is NUL-terminated
      within the buffer and is not a `D` envelope without four shorts. */
  predicate Receivable(env: seq<char>)
  {
    '\0' in env && Defined(CString(env))
  }

  /** What `parse` does with the envelope read from slot `i` once it has
      decoded it: exit when it could not be split, release the slot on a
      quit request, otherwise render it locally and forward the raw buffer
      to the others. */
  function Dispatch(st: RelayState, i: nat, env: seq<char>, m: Result<Message, DecodeError>): (r: Option<(RelayState, seq<Effect>)>)
    requires i < |st.table| && st.table[i] != 0
    ensures r.None? <==> m.Err?
    ensures r.Some? ==> r.value.0.table == if m == Ok(Quit) then st.table[i := 0] else st.table
  {
    match m
    case Err(_) => None
    case Ok(Quit) => Some((st.(table := st.table[i := 0]), [Close(i)]))
    case Ok(msg) =>
      var (canvas, local) := Render(st.canvas, msg);
      Some((st.(canvas := canvas), local + FanOut(st.table, i, env, 0)))
  }

  /** One `read` from slot `i` that returned bytes: `parse` the envelope,
      then either release the slot (quit) or forward the raw envelope to
      the others. None: `parse` found fewer than two fields and the process
      exits. */
  function Serve(st: RelayState, i: nat, env: seq<char>): (r: Option<(RelayState, seq<Effect>)>)
    requires i < |st.table| && st.table[i] != 0 && Receivable(env)
    ensures r.None? <==> ScanEnvelope(CString(env)).Err?
    ensures r.Some? ==> (r.value.0.table == st.table[i := 0] <==> Decode(CString(env)) == Ok(Quit))
    ensures r.Some? ==> r.value.0.table == st.table || r.value.0.table == st.table[i := 0]
  {
    Dispatch(st, i, env, Decode(CString(env)))
  }

  /** A non-quit envelope read from slot `i` is written exactly once to every
      other occupied slot and never back to `i`; a quit request is written
      to nobody. Whatever is written is the envelope as received. */
  lemma ServeForwardsOnce(st: RelayState, i: nat, env: seq<char>, slot: nat)
    requires i < |st.table| && st.table[i] != 0 && Receivable(env)
    requires Serve(st, i, env).Some?
    ensures var out := Serve(st, i, env).value.1;
      && Forwards(out, slot)
         == (if Decode(CString(env)) != Ok(Quit) && slot < |st.table| && st.table[slot] != 0 && slot != i
             then 1 else 0)
      && forall k :: 0 <= k < |out| && out[k].Forward? ==> out[k].envelope == env
  {
    var m := Decode(CString(env)).value;
    if m == Quit {
      NoForwards([Close(i)], slot);
    } else {
      var local := Render(st.canvas, m).1;
      NoForwards(local, slot);
      ForwardsAppend(local, FanOut(st.table, i, env, 0), slot);
      FanOutOnce(st.table, i, env, 0, slot);
    }
  }

  /** A `D` envelope with four shorts is drawn and logged at the relay,
      in front of the strokes already logged; everything else it causes
      is a forward. */
  lemma ServeStroke(st: RelayState, i: nat, env: seq<char>, s: Segment)
    requires i < |st.table| && st.table[i] != 0 && Receivable(env)
    ensures Decode(CString(env)) == Ok(Stroke(s)) ==> Serve(st, i, env).Some?
    ensures Decode(CString(env)) == Ok(Stroke(s)) ==>
      var r := Serve(st, i, env).value;
      && r.0.canvas == st.canvas.(log := AppendStroke(st.canvas.log, s))
      && |r.1| >= 1 && r.1[0] == Draw(s)
      && forall k :: 1 <= k < |r.1| ==> r.1[k].Forward?
  {
    if Decode(CString(env)) == Ok(Stroke(s)) {
      assert Serve(st, i, env) == Dispatch(st, i, env, Ok(Stroke(s)));
      var fan := FanOut(st.table, i, env, 0);
      assert Dispatch(st, i, env, Ok(Stroke(s)))
          == Some((st.(canvas := st.canvas.(log := AppendStroke(st.canvas.log, s))), [Draw(s)] + fan));
    }
  }

  /** The state of the read loop: still running, or the process has exited. */
  datatype Run = Running(relay: RelayState, out: seq<Effect>) | Crashed(out: seq<Effect>)

  /** A buffer read from a client's socket, with what `parse` makes of it. */
  datatype Read = Read(env: seq<char>, parsed: Result<Message, DecodeError>)

  /** Each buffer select reported and `read` filled, paired with its decoding. */
  function Parse(inbox: map<int, seq<char>>): (received: map<int, Read>)
    ensures received.Keys == inbox.Keys
    ensures forall fd :: fd in inbox ==> received[fd] == Read(inbox[fd], Decode(CString(inbox[fd])))
  {
    map fd | fd in inbox :: Read(inbox[fd], Decode(CString(inbox[fd])))
  }

  /** The `for i` read loop from slot `i` on. `received` holds, for each
      descriptor that select reported readable and whose `read` returned
      bytes, the buffer and its decoding; a read of zero or fewer bytes
      leaves the descriptor out and changes nothing. */
  function ServeFrom(st: RelayState, received: map<int, Read>, i: nat): (r: Run)
    requires |st.table| == MAX_CLIENTS && i <= MAX_CLIENTS
    ensures r.Running? ==> |r.relay.table| == MAX_CLIENTS
    ensures r.Running? ==> forall k :: 0 <= k < MAX_CLIENTS ==>
      r.relay.table[k] == st.table[k] || r.relay.table[k] == 0
    decreases MAX_CLIENTS - i
  {
    if i == MAX_CLIENTS then Running(st, [])
    else if st.table[i] != 0 && st.table[i] in received then
      var rd := received[st.table[i]];
      match Dispatch(st, i, rd.env, rd.parsed)
      case None => Crashed([])
      case Some((st1, out1)) =>
        match ServeFrom(st1, received, i + 1)
        case Running(st2, out2) => Running(st2, out1 + out2)
        case Crashed(out2) => Crashed(out1 + out2)
    else ServeFrom(st, received, i + 1)
  }

  /** Slot `k`'s client sent a quit request this tick. */
  predicate Released(t: Table, received: map<int, Read>, k: nat)
    requires k < |t|
  {
    t[k] != 0 && t[k] in received && received[t[k]].parsed == Ok(Quit)
  }

  /** Slot `k`'s client sent an envelope `parse` cannot split. */
  predicate Fails(t: Table, received: map<int, Read>, k: nat)
    requires k < |t|
  {
    t[k] != 0 && t[k] in received && received[t[k]].parsed.Err?
  }

  /** The read loop exits the process exactly when some slot it reaches sent
      an envelope `parse` cannot split. */
  lemma {:induction false} ServeFromCrashes(st: RelayState, received: map<int, Read>, i: nat)
    requires |st.table| == MAX_CLIENTS && i <= MAX_CLIENTS
    ensures ServeFrom(st, received, i).Crashed?
        <==> exists k :: i <= k < MAX_CLIENTS && Fails(st.table, received, k)
    decreases MAX_CLIENTS - i
  {
    if i < MAX_CLIENTS {
      var next := st;
      if st.table[i] != 0 && st.table[i] in received {
        var rd := received[st.table[i]];
        var served := Dispatch(st, i, rd.env, rd.parsed);
        if served.None? {
          assert Fails(st.table, received, i);
          return;
        }
        next := served.value.0;
      }
      assert !Fails(st.table, received, i);
      ServeFromCrashes(next, received, i + 1);
      assert forall k :: i < k < MAX_CLIENTS ==> next.table[k] == st.table[k];
      if ServeFrom(st, received, i).Crashed? {
        var k :| i + 1 <= k < MAX_CLIENTS && Fails(next.table, received, k);
        assert Fails(st.table, received, k);
      }
      if exists k :: i <= k < MAX_CLIENTS && Fails(st.table, received, k) {
        var k :| i <= k < MAX_CLIENTS && Fails(st.table, received, k);
        assert Fails(next.table, received, k);
      }
    }
  }

  /** When the read loop completes, it has emptied exactly the slots from
      `i` on whose clients sent a quit request and left every other slot as
      it was. */
  lemma {:induction false} ServeFromReleases(st: RelayState, received: map<int, Read>, i: nat)
    requires |st.table| == MAX_CLIENTS && i <= MAX_CLIENTS
    requires ServeFrom(st, received, i).Running?
    ensures forall k :: 0 <= k < MAX_CLIENTS ==>
      ServeFrom(st, received, i).relay.table[k]
        == (if i <= k && Released(st.table, received, k) then 0 else st.table[k])
    decreases MAX_CLIENTS - i
  {
    if i < MAX_CLIENTS {
      if st.table[i] != 0 && st.table[i] in received {
        var rd := received[st.table[i]];
        var st1 := Dispatch(st, i, rd.env, rd.parsed).value.0;
        var t := ServeFrom(st, received, i).relay.table;
        assert t == ServeFrom(st1, received, i + 1).relay.table;
        ServeFromReleases(st1, received, i + 1);
        forall k | 0 <= k < MAX_CLIENTS
          ensures t[k] == (if i <= k && Released(st.table, received, k) then 0 else st.table[k])
        {
          if k > i {
            assert st1.table[k] == st.table[k];
          }
        }
      } else {
        assert ServeFrom(st, received, i) == ServeFrom(st, received, i + 1);
        ServeFromReleases(st, received, i + 1);
        assert !Released(st.table, received, i);
      }
    }
  }

  /** What one pass of the loop observes. `selectFailed`: select returned -1.
      `stdin`: the bytes read when the console was readable and the read
      returned bytes. `accepted`: what `accept` returned when the listening
      socket was readable. `inbox`: the buffer `read` filled for each
      descriptor select reported readable whose read returned bytes. */
  datatype RelayEvent = RelayEvent(
    x: XInput,
    selectFailed: bool,
    stdin: Option<string>,
    accepted: Option<int>,
    inbox: map<int, seq<char>>)

  /** What the operating system guarantees about an event: select only
      reports descriptors of occupied slots, an accepted socket is a fresh
      descriptor (never 0, which is the console), every envelope is one
      the C code handles without undefined behaviour, and a console read
      leaves room for the terminator the loop stores after it. */
  predicate Admissible(st: RelayState, ev: RelayEvent)
  {
    && ValidTable(st.table)
    && (ev.stdin.Some? ==> |ev.stdin.value| < BUF_SIZE)
    && (forall fd :: fd in ev.inbox ==> fd != 0 && fd in st.table && Receivable(ev.inbox[fd]))
    && (ev.accepted.Some? ==> ev.accepted.value != 0 && ev.accepted.value !in st.table)
  }

  datatype Outcome =
    | Continue(relay: RelayState, out: seq<Effect>)  // the loop goes round again
    | Halted(out: seq<Effect>)                  // the loop broke; sockets closed
    | Fatal(out: seq<Effect>)                   // exit(EXIT_FAILURE)

  /** The accept branch: a negative descriptor exits the process; otherwise
      the new socket gets the first empty slot and is sent its index. */
  function AcceptStep(st: RelayState, accepted: Option<int>): (r: Option<(RelayState, seq<Effect>)>)
    requires accepted.Some? ==> accepted.value != 0
    ensures r.None? <==> accepted.Some? && accepted.value < 0
    ensures accepted.None? ==> r == Some((st, []))
    ensures r.Some? ==> r.value.0.canvas == st.canvas && |r.value.0.table| == |st.table|
  {
    match accepted
    case None => Some((st, []))
    case Some(h) =>
      if h < 0 then None
      else
        var (t, id) := Accept(st.table, h);
        Some((st.(table := t), if id.Some? then [Assign(id.value, IdentityText(id.value))] else []))
  }

  /** A connection with a usable descriptor takes the lowest empty slot
      and is sent that slot's index as one decimal digit; when every slot
      is taken the table is unchanged and nothing is sent. */
  lemma AcceptGreets(st: RelayState, h: int)
    requires |st.table| == MAX_CLIENTS && h > 0
    ensures AcceptStep(st, Some(h)).Some?
    ensures var r := AcceptStep(st, Some(h)).value;
      && r.0.canvas == st.canvas
      && (r.1 == [] <==> forall j :: 0 <= j < MAX_CLIENTS ==> st.table[j] != 0)
      && (r.1 == [] ==> r.0.table == st.table)
      && (r.1 != [] ==>
        && |r.1| == 1 && r.1[0].Assign?
        && var k := r.1[0].slot;
           var text := r.1[0].idText;
           && k < MAX_CLIENTS && st.table[k] == 0
           && (forall j :: 0 <= j < k ==> st.table[j] != 0)
           && r.0.table == st.table[k := h]
           && |text| == 1 && IsDigit(text[0]) && DigitValue(text[0]) == k)
  {
    var id := Accept(st.table, h).1;
    if id.Some? {
      IdentityOneDigit(id.value);
    }
  }

  /** The operator typed the shutdown command this pass. */
  predicate Shutdown(ev: RelayEvent)
  {
    ev.stdin.Some? && QuitCommand(ev.stdin.value)
  }

  /** One pass of the relay loop: `onEvent`, select, the console, accept,
      the read loop in slot order, then the `hasNext` test. */
  function Tick(st: RelayState, ev: RelayEvent): (o: Outcome)
    requires Admissible(st, ev)
    ensures ev.selectFailed ==> o.Halted?
    ensures o.Halted? ==> ev.selectFailed || Shutdown(ev)
    ensures Shutdown(ev) ==> !o.Continue?
  {
    var (canvas, drawn) := OnEvent(st.canvas, ev.x);
    var st0 := st.(canvas := canvas);
    if ev.selectFailed then Halted(drawn + CloseAll(st0.table, 0))
    else
      match AcceptStep(st0, ev.accepted)
      case None => Fatal(drawn)
      case Some((st1, greeting)) =>
        match ServeFrom(st1, Parse(ev.inbox), 0)
        case Crashed(out) => Fatal(drawn + greeting + out)
        case Running(st2, out) =>
          if Shutdown(ev) then Halted(drawn + greeting + out + CloseAll(st2.table, 0))
          else Continue(st2, drawn + greeting + out)
  }

  /** The only fatal inputs are a failed accept and an envelope that
      `sscanf("%c-%s")` cannot split; no other input stops the relay
      with failure. */
  lemma TickFatalIff(st: RelayState, ev: RelayEvent)
    requires Admissible(st, ev) && !ev.selectFailed
    ensures Tick(st, ev).Fatal? <==>
      || (ev.accepted.Some? && ev.accepted.value < 0)
      || exists fd :: fd in ev.inbox && ScanEnvelope(CString(ev.inbox[fd])).Err?
  {
    var st0 := st.(canvas := OnEvent(st.canvas, ev.x).0);
    var acc := AcceptStep(st0, ev.accepted);
    if acc.Some? {
      var st1 := acc.value.0;
      AcceptStepTable(st, ev, OnEvent(st.canvas, ev.x).0);
      ServeFromCrashes(st1, Parse(ev.inbox), 0);
      assert Tick(st, ev).Fatal? <==> ServeFrom(st1, Parse(ev.inbox), 0).Crashed?;
      CrashIffUnsplit(st, ev);
    }
  }

  /** Some occupied slot of the accepted table fails exactly when some
      envelope in the inbox cannot be split: every inbox descriptor belongs
      to a slot that was occupied before the accept and stays so. */
  lemma CrashIffUnsplit(st: RelayState, ev: RelayEvent)
    requires Admissible(st, ev) && !ev.selectFailed
    requires ev.accepted.Some? ==> ev.accepted.value > 0
    ensures (exists k :: 0 <= k < MAX_CLIENTS && Fails(Accepted(st, ev), Parse(ev.inbox), k))
        <==> exists fd :: fd in ev.inbox && ScanEnvelope(CString(ev.inbox[fd])).Err?
  {
    var t := Accepted(st, ev);
    var received := Parse(ev.inbox);
    if exists fd :: fd in ev.inbox && ScanEnvelope(CString(ev.inbox[fd])).Err? {
      var fd :| fd in ev.inbox && ScanEnvelope(CString(ev.inbox[fd])).Err?;
      var k :| 0 <= k < |st.table| && st.table[k] == fd;
      DefinedFailsUnsplit(CString(ev.inbox[fd]));
      assert Fails(t, received, k);
    }
    if exists k :: 0 <= k < MAX_CLIENTS && Fails(t, received, k) {
      var k :| 0 <= k < MAX_CLIENTS && Fails(t, received, k);
      var fd := t[k];
      assert fd in ev.inbox;
      assert received[fd].parsed.Err?;
      DefinedFailsUnsplit(CString(ev.inbox[fd]));
    }
  }

  /** The console line `:q\n` ends the loop only once the pass is over:
      the pass runs exactly as it would without the line (accept and read
      loop included), and then every slot still occupied is closed, the
      slot filled by this pass's accept among them. */
  lemma TickShutdown(st: RelayState, ev: RelayEvent)
    requires Admissible(st, ev) && !ev.selectFailed && Shutdown(ev)
    requires !Tick(st, ev).Fatal?
    ensures ev.accepted.Some? ==> ev.accepted.value > 0
    ensures Tick(st, ev.(stdin := None)).Continue?
    ensures var pass := Tick(st, ev.(stdin := None));
      Tick(st, ev) == Halted(pass.out + CloseAll(pass.relay.table, 0))
    ensures forall k :: 0 <= k < MAX_CLIENTS && Accepted(st, ev)[k] != 0
                        && !Released(Accepted(st, ev), Parse(ev.inbox), k) ==>
      Close(k) in Tick(st, ev).out
  {
    var quiet := ev.(stdin := None);
    var (canvas, drawn) := OnEvent(st.canvas, ev.x);
    var st0 := st.(canvas := canvas);
    AcceptStepTable(st, ev, canvas);
    var (st1, greeting) := AcceptStep(st0, ev.accepted).value;
    var received := Parse(ev.inbox);
    var run := ServeFrom(st1, received, 0);
    assert run.Running?;
    assert Tick(st, quiet) == Continue(run.relay, drawn + greeting + run.out);
    ServeFromReleases(st1, received, 0);
    var t := run.relay.table;
    var closing := CloseAll(t, 0);
    assert Tick(st, ev) == Halted(drawn + greeting + run.out + closing);
    forall k | 0 <= k < MAX_CLIENTS && st1.table[k] != 0 && !Released(st1.table, received, k)
      ensures Close(k) in Tick(st, ev).out
    {
      assert t[k] != 0;
      assert Close(k) in closing;
    }
  }

  /** The table after `onEvent` and the accept branch of a pass. */
  function Accepted(st: RelayState, ev: RelayEvent): (t: Table)
    requires Admissible(st, ev) && !ev.selectFailed
    requires ev.accepted.Some? ==> ev.accepted.value > 0
    ensures ValidTable(t)
    ensures forall k :: 0 <= k < MAX_CLIENTS && st.table[k] != 0 ==> t[k] == st.table[k]
    ensures forall k :: 0 <= k < MAX_CLIENTS && st.table[k] == 0 && t[k] != 0 ==>
      && ev.accepted.Some? && t[k] == ev.accepted.value
      && forall j :: 0 <= j < k ==> st.table[j] != 0
  {
    if ev.accepted.Some? then
      AcceptKeepsValid(st.table, ev.accepted.value);
      Accept(st.table, ev.accepted.value).0
    else st.table
  }

  /** The accept branch of a pass, whatever `onEvent` did to the canvas,
      leaves exactly the table `Accepted` describes. */
  lemma AcceptStepTable(st: RelayState, ev: RelayEvent, canvas: Canvas)
    requires Admissible(st, ev) && !ev.selectFailed
    requires ev.accepted.Some? ==> ev.accepted.value > 0
    ensures AcceptStep(st.(canvas := canvas), ev.accepted).Some?
    ensures AcceptStep(st.(canvas := canvas), ev.accepted).value.0.table == Accepted(st, ev)
  {
  }

  /** Across a pass that keeps running, the table stays valid; an occupied
      slot is emptied exactly when its client sent a quit request; an empty
      slot is filled only by the accepted socket, in the first empty slot. */
  lemma TickTable(st: RelayState, ev: RelayEvent)
    requires Admissible(st, ev) && Tick(st, ev).Continue?
    ensures var t := Tick(st, ev).relay.table;
      && ValidTable(t)
      && (forall k :: 0 <= k < MAX_CLIENTS && st.table[k] != 0 ==>
            (t[k] == 0 <==> Released(st.table, Parse(ev.inbox), k)) && (t[k] != 0 ==> t[k] == st.table[k]))
      && (forall k :: 0 <= k < MAX_CLIENTS && st.table[k] == 0 && t[k] != 0 ==>
            && ev.accepted.Some? && t[k] == ev.accepted.value
            && forall j :: 0 <= j < k ==> st.table[j] != 0)
  {
    var st0 := st.(canvas := OnEvent(st.canvas, ev.x).0);
    AcceptStepTable(st, ev, OnEvent(st.canvas, ev.x).0);
    var st1 := AcceptStep(st0, ev.accepted).value.0;
    var received := Parse(ev.inbox);
    var run := ServeFrom(st1, received, 0);
    assert Tick(st, ev).relay == run.relay;
    ServeFromReleases(st1, received, 0);
    var t := run.relay.table;
    ReleaseKeepsValid(st1.table, t);
    forall k | 0 <= k < MAX_CLIENTS && st.table[k] == 0 && st1.table[k] != 0
      ensures !Released(st1.table, received, k)
    {
      assert st1.table[k] == ev.accepted.value;
      assert st1.table[k] !in ev.inbox;
    }
    forall k | 0 <= k < MAX_CLIENTS && st.table[k] != 0
      ensures Released(st1.table, received, k) <==> Released(st.table, received, k)
    {
    }
  }

  /** A sequence of connections accepted one after another, each into the
      table the previous one left. */
  function AcceptAll(t: Table, hs: seq<int>): (r: (Table, seq<Option<nat>>))
    requires forall k :: 0 <= k < |hs| ==> hs[k] > 0
    ensures |r.1| == |hs|
    decreases |hs|
  {
    if |hs| == 0 then (t, [])
    else
      var (t1, id) := Accept(t, hs[0]);
      var (t2, ids) := AcceptAll(t1, hs[1..]);
      (t2, [id] + ids)
  }

  /** Exactly the slots below `n` are occupied. */
  predicate FilledBelow(t: Table, n: nat)
  {
    |t| == MAX_CLIENTS && forall k :: 0 <= k < |t| ==> (t[k] != 0 <==> k < n)
  }

  /** Connections arriving at a table whose first `n` slots are taken get
      the identities n, n+1, ... until the table is full, and none after. */
  lemma {:induction false} AcceptInOrder(t: Table, n: nat, hs: seq<int>)
    requires n <= MAX_CLIENTS && FilledBelow(t, n)
    requires forall k :: 0 <= k < |hs| ==> hs[k] > 0
    ensures forall k :: 0 <= k < |hs| ==>
      AcceptAll(t, hs).1[k] == (if n + k < MAX_CLIENTS then Some(n + k) else None)
    decreases |hs|
  {
    if |hs| > 0 {
      var (t1, id) := Accept(t, hs[0]);
      var n1 := if n < MAX_CLIENTS then n + 1 else n;
      if n < MAX_CLIENTS {
        assert t[n] == 0;
        assert id == Some(n);
      } else {
        assert id == None;
      }
      assert FilledBelow(t1, n1);
      AcceptInOrder(t1, n1, hs[1..]);
      var ids := AcceptAll(t, hs).1;
      assert ids == [id] + AcceptAll(t1, hs[1..]).1;
      forall k | 0 < k < |hs|
        ensures ids[k] == (if n + k < MAX_CLIENTS then Some(n + k) else None)
      {
        assert ids[k] == AcceptAll(t1, hs[1..]).1[k - 1];
      }
    }
  }

  /** From the initial table, the first MAX_CLIENTS connections receive the
      distinct identities 0, 1, ..., in arrival order; every later one
      receives none. */
  lemma FirstComeFirstServed(hs: seq<int>)
    requires forall k :: 0 <= k < |hs| ==> hs[k] > 0
    ensures forall k :: 0 <= k < |hs| ==>
      AcceptAll(EMPTY, hs).1[k] == (if k < MAX_CLIENTS then Some(k) else None)
  {
    AcceptInOrder(EMPTY, 0, hs);
  }
}

=== FILE: strokes.dfy ===
/** The local canvas state both programs keep: the stroke list rooted at
    `strokeRoot` (new strokes are pushed at the front, an Expose redraws the
    list from the root) and the drag anchor `startPoint`. */
module Strokes {
  import opened Base
  import opened Codec

  /** X events as `onEvent` sees them; Idle when no event is queued. */
  datatype XInput =
    | Idle
    | Expose
    | ButtonPress(at: Point)
    | MotionNotify(at: Point)
    | OtherEvent

  /** `strokeRoot` as a sequence, newest first, and `startPoint`. */
  datatype Canvas = Canvas(log: seq<Segment>, anchor: Point)

  /** The state at start-up: an empty list and a zero-initialised anchor. */
  const BLANK: Canvas := Canvas([], Point(0, 0))

  /** `appendStroke`: the new node becomes the root. */
  function AppendStroke(log: seq<Segment>, s: Segment): (r: seq<Segment>)
    ensures |r| == |log| + 1 && r[0] == s && r[1..] == log
  {
    [s] + log
  }

  /** Appending several strokes, oldest first. */
  function AppendAll(log: seq<Segment>, ss: seq<Segment>): seq<Segment>
    decreases |ss|
  {
    if |ss| == 0 then log else AppendAll(AppendStroke(log, ss[0]), ss[1..])
  }

  function Reverse<T>(ss: seq<T>): seq<T>
  {
    if |ss| == 0 then [] else Reverse(ss[1..]) + [ss[0]]
  }

  lemma {:induction false} ReverseIndex<T>(ss: seq<T>)
    ensures |Reverse(ss)| == |ss|
    ensures forall k :: 0 <= k < |ss| ==> Reverse(ss)[k] == ss[|ss| - 1 - k]
  {
    if |ss| > 0 {
      ReverseIndex(ss[1..]);
      var r := Reverse(ss[1..]);
      forall k | 0 <= k < |ss|
        ensures Reverse(ss)[k] == ss[|ss| - 1 - k]
      {
        if k < |ss| - 1 {
          assert Reverse(ss)[k] == r[k];
          assert r[k] == ss[1..][|ss| - 2 - k];
        }
      }
    }
  }

  /** The list holds the appended strokes newest first, in front of the
      strokes it already held, which are left untouched. */
  lemma {:induction false} AppendAllReverses(log: seq<Segment>, ss: seq<Segment>)
    ensures AppendAll(log, ss) == Reverse(ss) + log
    decreases |ss|
  {
    if |ss| > 0 {
      var rest := Reverse(ss[1..]);
      calc {
        AppendAll(log, ss);
        AppendAll(AppendStroke(log, ss[0]), ss[1..]);
        { AppendAllReverses(AppendStroke(log, ss[0]), ss[1..]); }
        rest + AppendStroke(log, ss[0]);
        rest + ([ss[0]] + log);
        { assert rest + ([ss[0]] + log) == (rest + [ss[0]]) + log; }
        (rest + [ss[0]]) + log;
        Reverse(ss) + log;
      }
    }
  }

  /** The Expose loop: one line per node, walking from the root. */
  function Replay(log: seq<Segment>): (r: seq<Effect>)
    ensures |r| == |log|
    ensures forall k :: 0 <= k < |log| ==> r[k] == Draw(log[k])
  {
    if |log| == 0 then [] else [Draw(log[0])] + Replay(log[1..])
  }

  /** After strokes are appended, an Expose draws each of them exactly once,
      the most recent first, and then every older stroke in its old order. */
  lemma ExposeNewestFirst(log: seq<Segment>, ss: seq<Segment>)
    ensures var r := Replay(AppendAll(log, ss));
      && |r| == |ss| + |log|
      && (forall k :: 0 <= k < |ss| ==> r[k] == Draw(ss[|ss| - 1 - k]))
      && (forall k :: 0 <= k < |log| ==> r[|ss| + k] == Draw(log[k]))
  {
    AppendAllReverses(log, ss);
    ReverseIndex(ss);
    var r := Replay(Reverse(ss) + log);
    forall k | 0 <= k < |log|
      ensures r[|ss| + k] == Draw(log[k])
    {
      assert (Reverse(ss) + log)[|ss| + k] == log[k];
    }
  }

  /** The segments a drag draws from anchor `a` through the pointer
      positions `ps`: each starts where the previous one ended. */
  function Trace(a: Point, ps: seq<Point>): (r: seq<Segment>)
    ensures |r| == |ps|
    ensures |ps| > 0 ==> r[0].p0 == a
    ensures forall k :: 0 <= k < |ps| ==> r[k].p1 == ps[k]
    ensures forall k :: 0 < k < |ps| ==> r[k].p0 == r[k - 1].p1
  {
    seq(|ps|, k requires 0 <= k < |ps| => Segment(if k == 0 then a else ps[k - 1], ps[k]))
  }

  lemma TraceCons(a: Point, ps: seq<Point>)
    requires |ps| > 0
    ensures Trace(a, ps) == [Segment(a, ps[0])] + Trace(ps[0], ps[1..])
  {
  }

  /** What the `switch` in either `parse` does with a decoded message, apart
      from the relay's quit handling: print a chat token, draw and log a
      stroke, ignore anything else. */
  function Render(c: Canvas, m: Message): (r: (Canvas, seq<Effect>))
    ensures r.0.anchor == c.anchor
    ensures r.0.log == (if m.Stroke? then AppendStroke(c.log, m.seg) else c.log)
    ensures |r.1| <= 1 && forall k :: 0 <= k < |r.1| ==> r.1[k].Draw? || r.1[k].Print?
    ensures m.Chat? ==> r.1 == [Print(m.text)]
    ensures m.Stroke? ==> r.1 == [Draw(m.seg)]
    ensures !(m.Chat? || m.Stroke?) ==> r.1 == []
  {
    match m
    case Chat(text) => (c, [Print(text)])
    case Stroke(seg) => (c.(log := AppendStroke(c.log, seg)), [Draw(seg)])
    case _ => (c, [])
  }
}
